=== FILE: README.md ===
# Observer and state patterns, modelled in Dafny

This project models the observer and state pattern examples of
`design-pattern-rust`. There are five systems:

- **The nested event bus** (`patterns/observer/type_observer/`). An `Observer` owns a shared
  `ListenerMap`, which maps each event type to its ordered list of `Listener`s. A `Listener` is
  a shared cell holding:
  - the event type it accepts;
  - the registry it is active in, if any;
  - its closure.

  `send(e)` seeds an `EventPool` (a FIFO queue) with `e`. It then pops events until the pool is
  empty and runs every listener of the popped event's type, in list order. A listener may push
  more events into the pool. Those run after the current layer, breadth first.
  - Modules: `EventPool`, `Lists`, `ListenerMap`, `Observer`, `Relays`.
  - The demo and the tests, which sit in a comment block beside the demo, are in
    `ObserverScenarios` and `ObserverTests`.
- **The simple typed observer** (`patterns/observer/safe/type_observer/`). Its twins are the
  in-file copy in `safe/type_observer/main.rs` and `unsafe/type_observer/main.rs`. The unsafe
  twin inlines `add` into `subscribe` and is otherwise the same.
  - The observer keeps one list of `Subscriber`s per event type.
  - `subscribe` returns a clone of the new subscriber.
  - `unsubscribe` removes the first entry equal to the handle from the handle's own type list.
  - `notify` runs the list of the event's type.
  - Modules: `TypedObserver`, and `TypedObserverScenarios` for its demo and tests.
- **The value observer with handles** (`patterns/observer/value_observer/main.rs`, and its twin
  `safe/value_observer/main.rs`). It keeps one list. `unsubscribe` is `retain`, so it drops every
  equal entry. Module: `ValueObserver`.
- **The plain value observer** (`patterns/observer/value/main.rs`). It is a list of closures with
  no handles. Module: `PlainObserver`.
- **The three-state toggle** (`patterns/state/state_return/main.rs` and
  `patterns/state/state_inside/main.rs`). Modules: `ToggleStates`, `StateReturn`, `StateInside`.

How the source's mechanisms are modelled:

- **Shared cells are values in a store.** `Rc<RefCell<_>>` cells live in maps keyed by
  identities that come from counters, so `Rc::new` always yields a fresh identity.
  `PartialEq` (`Rc::ptr_eq`) is equality of identities.
- **A `TypeId` is a `Tag`.** A boxed `dyn Event` is an `Event(tag, payload)`.
- **A closure is a pure function.**
  - In the event bus, a closure takes the event and the output written so far. It answers the
    events it sends and the text it appends.
  - In the other observers, a closure maps the state it captures (`S`) to the state after the
    call.
- **The event bus registry is frozen during a send.** The source holds `borrow_mut()` on the
  registry for the whole drain loop. A listener body that tried to change that registry would
  panic. In the model a body is a pure function: it answers the events it pushes and the text
  it appends, and nothing else (see "Left out" for what a body can do beyond that).
- **The drain loop has fuel.** `ListenerMap.Drain` takes a fuel bound on the number of pops.
  `None` means the bound ran out. `DrainFuelMonotone` shows that fuel never changes a result
  that was reached.

## Model

| member | source | states |
|---|---|---|
| EventPool.New | patterns/observer/type_observer/even_pool.rs:9-13 | a new pool pops nothing |
| EventPool.From | patterns/observer/type_observer/even_pool.rs:15-23 | the pool holds exactly the given event: the first pop returns it, the second returns nothing |
| EventPool.Send | patterns/observer/type_observer/even_pool.rs:25-28 | `push_back`: one more event, at the back, with the earlier events untouched |
| EventPool.Pop | patterns/observer/type_observer/even_pool.rs:30-32 | `pop_front`: `None` exactly when the pool is empty, and then the pool is unchanged; otherwise the popped event followed by the rest is the old pool |
| EventPool.SendAll | patterns/observer/type_observer/even_pool.rs:25-28 | several sends append their events in the order sent |
| EventPool.Step | patterns/observer/type_observer/even_pool.rs:25-32 | one `send` or `pop`: what it returned, then the pool, equals the old pool followed by what it sent |
| EventPool.RunIsFifo | patterns/observer/type_observer/even_pool.rs:25-32 | for any interleaving of sends and pops, the popped events followed by the remaining pool equal the initial pool followed by every sent event (first in, first out) |
| Events.NatToString | patterns/observer/type_observer/main.rs:51 | `format!("{}", n)` of a `u32`: at least one character, decimal digits only, no leading zero |
| Events.NatToStringRoundTrip | patterns/observer/type_observer/main.rs:51 | reading the printed digits back gives the number |
| Events.IntToString | patterns/observer/safe/type_observer/main.rs:16 | `format!("{}", num)` of an `i32`: a leading `-` exactly for a negative number, then at least one decimal digit and nothing else, with no leading zero |
| Events.IntToStringRoundTrip | patterns/observer/safe/type_observer/main.rs:16 | reading the sign and the digits back gives the number |
| Events.BoolToString | patterns/observer/type_observer/main.rs:172 | `bool::to_string` prints "true" exactly for `true` and "false" exactly for `false` |
| Lists.FromListener | patterns/observer/type_observer/vec_listeners.rs:9-13 | the new list holds exactly the listener; the buffer size only reserves capacity |
| Lists.IndexOf | patterns/observer/type_observer/vec_listeners.rs:24 | `position`: `None` exactly when the entry is absent; otherwise the least index holding it |
| Lists.RemoveFirst | patterns/observer/type_observer/vec_listeners.rs:23-29 | no change when the entry is absent; otherwise one entry fewer, and the multiset loses exactly one copy |
| Lists.RemoveFirstShape | patterns/observer/type_observer/vec_listeners.rs:23-29 | the deleted position is the first occurrence, and every other entry keeps its place |
| Lists.RemoveFirstKeepsOrder | patterns/observer/type_observer/vec_listeners.rs:23-29 | the remaining entries keep their relative order |
| Lists.RemoveAll | patterns/observer/value_observer/main.rs:42-44 | `retain(\|v\| v != x)`: no copy of `x` remains, every other entry remains, the length drops by the number of copies, and nothing changes when `x` is absent |
| Lists.RemoveAllKeepsOrder | patterns/observer/value_observer/main.rs:42-44 | `retain` keeps the survivors in their relative order |
| Lists.RemoveAllAppend | patterns/observer/value_observer/main.rs:42-44 | `retain` on a concatenation is `retain` on each part |
| Lists.RemoveFirstIsRemoveAllWhenUnique | patterns/observer/type_observer/vec_listeners.rs:23-29 | the bus's `remove_first` and the value observer's `retain` agree whenever the entry occurs at most once |
| Lists.RemoveFirstDiffersOnDuplicates | patterns/observer/type_observer/vec_listeners.rs:23-29 | with a duplicate they differ: `remove_first` leaves one copy, `retain` none |
| ListenerMap.New | patterns/observer/type_observer/listener_map.rs:13-18 | every event type has an empty list |
| ListenerMap.Add | patterns/observer/type_observer/listener_map.rs:20-31 | the listener is appended to its type's list, which is created as `[l]` when the key is missing; other keys are untouched |
| ListenerMap.Remove | patterns/observer/type_observer/listener_map.rs:33-37 | `and_modify` creates no key; the type's list loses its first copy of the listener, if it holds one, and keeps its order; other lists are untouched |
| ListenerMap.RemoveUndoesAdd | patterns/observer/type_observer/listener_map.rs:20-37 | removing a listener just added, which was not in its list before, restores every list |
| ListenerMap.RemoveLastListener | patterns/observer/type_observer/listener_map.rs:33-37 | removing the only listener leaves an empty list under the key, and draining with it is the same as draining without the key |
| ListenerMap.NotifyAll | patterns/observer/type_observer/vec_listeners.rs:17-21 | each listener of the list runs once, in list order, with the same event, and sees the output of the earlier ones |
| ListenerMap.Added | patterns/observer/type_observer/listener_map.rs:48-54 | the invocations for one popped event are exactly its type's list, and none for an unknown type; each reaction is what that listener's body answers, given the output before it |
| ListenerMap.CallListenersFor | patterns/observer/type_observer/listener_map.rs:48-54 | an event type with no listeners leaves the session unchanged; otherwise the log gains that type's calls, the pool gains what they sent, in sending order, and the text gains what they wrote |
| ListenerMap.Next | patterns/observer/type_observer/listener_map.rs:43-44 | one turn of the loop records the popped event as dispatched, runs that event's list, queues what the listeners sent behind the events still pending, and appends what they wrote |
| ListenerMap.Drain | patterns/observer/type_observer/listener_map.rs:39-45 | a finished drain leaves the pool empty |
| ListenerMap.DispatchOneKeepsWave | patterns/observer/type_observer/listener_map.rs:43-44 | one pop and its list's run keep the drain invariant |
| ListenerMap.DrainKeepsWave | patterns/observer/type_observer/listener_map.rs:39-45 | the drain invariant holds through the loop: (1) dispatched events followed by the pool are the seed followed by every emitted event; (2) the invocations are the lists of the dispatched events, in order; (3) the text is the initial text followed by every output; (4) each logged reaction is what that listener's body answers, given the output before it |
| ListenerMap.Call | patterns/observer/type_observer/listener_map.rs:39-45 | when it ends, the pool is empty, and the events dispatched are the seed followed by every emitted event in sending order (breadth first). Each dispatched event ran its type's whole list, in order. Each reaction is what that listener's body answers, given the output before it, and the text is everything written, in order |
| ListenerMap.ScheduleIsolated | patterns/observer/type_observer/listener_map.rs:48-54 | every scheduled call is of a listener in the list of its event's type, and of a dispatched event |
| ListenerMap.CallIsolated | patterns/observer/type_observer/listener_map.rs:39-54 | a send only ever calls listeners registered for the type of the event they receive |
| ListenerMap.NoListenersIsNoOp | patterns/observer/type_observer/listener_map.rs:48-54 | sending an event no one listens to dispatches it and changes nothing else |
| ListenerMap.SameBucketsSameDrain | patterns/observer/type_observer/listener_map.rs:39-54 | the drain depends only on the lists, so a missing key and an empty list behave alike |
| ListenerMap.DrainFuelMonotone | patterns/observer/type_observer/listener_map.rs:39-45 | more fuel never changes a finished drain |
| Observer.NewObserver | patterns/observer/type_observer/observer.rs:17-21 | a fresh registry with every list empty; other observers and listeners are untouched |
| Observer.NewListener | patterns/observer/type_observer/observer.rs:51-61 | a fresh inactive listener cell of the given type and body; no registry changes |
| Observer.InBucketIffActive | patterns/observer/type_observer/observer.rs:69-82 | a listener is in an observer's list for a type exactly when it is active on that observer and has that type |
| Observer.Deactivate | patterns/observer/type_observer/observer.rs:76-82 | the parent is taken and the listener is in no list anywhere; nothing changes for an inactive one; only its parent's list of its type changes, by one removal |
| Observer.DeactivateIdempotent | patterns/observer/type_observer/observer.rs:76-82 | deactivating twice is deactivating once |
| Observer.Activate | patterns/observer/type_observer/observer.rs:69-74 | after the implicit `deactivate`, the listener sits exactly once in the new parent's list of its type, at the end, and in no other list |
| Observer.ActivateShape | patterns/observer/type_observer/observer.rs:69-74 | activating is `deactivate` followed by `ListenerMap::add` on the new parent's registry, so every other entry of every registry keeps its place |
| Observer.ListenShape | patterns/observer/type_observer/observer.rs:69-74 | activating an inactive listener is `ListenerMap::add` on the parent's registry and nothing else |
| Observer.Listen | patterns/observer/type_observer/observer.rs:23-27 | a fresh active listener appended to the observer's list of its type; every other list and cell is untouched |
| Observer.ListenBuckets | patterns/observer/type_observer/observer.rs:23-27 | on the observer, `listen` appends to exactly one list and leaves the others alone |
| Observer.RemoveListener | patterns/observer/type_observer/observer.rs:29-31 | it is exactly the listener's own `deactivate`, whichever observer was asked; the listener ends inactive and in no list |
| Observer.Send | patterns/observer/type_observer/observer.rs:33-35 | a finished send empties the pool and dispatches the sent event first, then every sent event in sending order. It calls only active listeners of this observer, of each event's own type, in breadth-first order; each reaction is what the listener's body answers, and the text grows by what they wrote |
| Observer.SendIsCall | patterns/observer/type_observer/observer.rs:33-35 | `send` is `ListenerMap::call` on the observer's own registry, with the bodies of its listeners |
| Observer.SendIsTypeSafe | patterns/observer/type_observer/observer.rs:33-35 | every listener a send calls was made for the type of the event it receives, so the transmuted closure always gets its own event type |
| Observer.DeactivatedNeverRuns | patterns/observer/type_observer/observer.rs:76-82 | after `deactivate`, no send on any observer calls the listener |
| Observer.SeparateListenersDiffer | patterns/observer/type_observer/observer.rs:112-116 | two `Listener::new` calls give handles that are never `==` |
| Relays.RelayCall | patterns/observer/type_observer/listener_map.rs:39-45 | when each popped event has one listener, which sends the next event, the send runs the chain in order and writes its outputs in order |
| Relays.OneRound | patterns/observer/type_observer/listener_map.rs:39-45 | when the listeners of the sent event send nothing, the send is one turn: exactly that list runs |
| ObserverScenarios.ListenNext | patterns/observer/type_observer/main.rs:42-69 | each `create_*_listener` registers one more listener, active for its own event type |
| ObserverScenarios.DemoListeners | patterns/observer/type_observer/main.rs:30-40 | `create_listeners` leaves all four listeners active, one per type |
| ObserverScenarios.Demo | patterns/observer/type_observer/main.rs:18-28 | after the red listener's `deactivate`, the first, second and third listeners are each alone in their lists and the red list is empty |
| ObserverScenarios.DemoRedRunsNothing | patterns/observer/type_observer/main.rs:13 | sending `RedEvent` after the deactivation calls no listener |
| ObserverScenarios.DemoReactions | patterns/observer/type_observer/main.rs:48-69 | the first listener sends the second event, the second sends the third, and the third writes the text |
| ObserverScenarios.DemoRelay | patterns/observer/type_observer/main.rs:48-69 | the three demo listeners form a chain in which each one's event reaches the next |
| ObserverScenarios.DemoFirstEvent | patterns/observer/type_observer/main.rs:14 | sending `FirstEvent { val: 555 }` calls the first, second and third listeners, in that order, and writes one text |
| ObserverScenarios.DemoRun | patterns/observer/type_observer/main.rs:11-16 | `main` finishes exactly when its `RedEvent` send finishes and then its `FirstEvent` send, on the text the first left, finishes |
| ObserverScenarios.DemoRunText | patterns/observer/type_observer/main.rs:11-16 | `main` builds `"first(555),  second,  third, "` |
| ObserverScenarios.DemoAssertionAsWrittenFails | patterns/observer/type_observer/main.rs:15 | the text `main` builds is not the literal its assertion compares against |
| ObserverScenarios.DemoFromEmpty | patterns/observer/type_observer/main.rs:11-16 | the demo text, starting from nothing allocated |
| ObserverTests.AddListenerAndSendStores | patterns/observer/type_observer/main.rs:119-128 | the `bool` listener receives the flag that was sent, once |
| ObserverTests.CheckEventArgsReadsField | patterns/observer/type_observer/main.rs:130-143 | the listener reads the event's own field: the counter is the number sent |
| ObserverTests.ListenDeactivateSend | patterns/observer/type_observer/main.rs:146-158 | a listener deactivated before the send is not called, and the send writes nothing |
| ObserverTests.SendFromOtherEventText | patterns/observer/type_observer/main.rs:161-185 | events sent from inside listeners reach their listeners in turn: the text is `"Hello, true, 100"` |
| ObserverTests.LoopingSendStops | patterns/observer/type_observer/main.rs:188-217 | `Foo` and `Bar` bounce until the vector holds six entries, and then the loop ends |
| ObserverTests.SeveralIdenticalEventsCount | patterns/observer/type_observer/main.rs:220-235 | sending `true` to three `bool` listeners, one of which counts only `false`, leaves the counter at 2 |
| TypedObserver.Clone | patterns/observer/safe/type_observer/subscriber.rs:38-45 | a clone is `==` to the original and has the same event type |
| TypedObserver.Cast | patterns/observer/safe/type_observer/subscriber.rs:9-11 | the downcast succeeds exactly when the event has the expected type, and then answers the event's own data |
| TypedObserver.New | patterns/observer/safe/type_observer/observer.rs:11-15 | every type's list is empty |
| TypedObserver.Add | patterns/observer/safe/type_observer/observer.rs:44-54 | appends to the subscriber's type list, or starts it as `[s]`; callback cells are untouched |
| TypedObserver.Subscribe | patterns/observer/safe/type_observer/observer.rs:17-23 | a fresh callback cell, appended to its type's list; the returned handle is a new, well-formed handle of that type that was not in the list before |
| TypedObserver.Position | patterns/observer/safe/type_observer/observer.rs:35 | `position`: `None` exactly when no entry equals the handle; otherwise the least such index |
| TypedObserver.RemoveSubscriber | patterns/observer/safe/type_observer/observer.rs:35-39 | deletes the first equal entry and keeps the rest in place; nothing changes when there is none |
| TypedObserver.Unsubscribe | patterns/observer/safe/type_observer/observer.rs:33-41 | only the handle's own type list changes, and no key is created; callback cells are untouched |
| TypedObserver.UnsubscribeKeepsWf | patterns/observer/safe/type_observer/observer.rs:33-41 | `unsubscribe` keeps the observer well formed |
| TypedObserver.UnsubscribeRemovesEverywhere | patterns/observer/safe/type_observer/observer.rs:33-41 | after `unsubscribe(h)`, no list holds `h`'s callback any more |
| TypedObserver.OnlyUnderOwnKind | patterns/observer/safe/type_observer/observer.rs:44-54 | a handed-out handle's callback is never listed under another event type |
| TypedObserver.RunAll | patterns/observer/safe/type_observer/observer.rs:27-29 | the callbacks called are exactly the list's, in list order, and the state is what the closures behind those handles give when run in that order, each on the state the previous one left |
| TypedObserver.Funs | patterns/observer/safe/type_observer/observer.rs:27-29 | the list of handles seen as the closures in their cells, one per handle and in list order |
| TypedObserver.RunAllAppend | patterns/observer/safe/type_observer/observer.rs:27-29 | running `a + b` runs `a` and then `b`, on the state `a` left |
| TypedObserver.Notify | patterns/observer/safe/type_observer/observer.rs:25-31 | the callbacks called are exactly the event type's list, in order (none when the type has no key); each was subscribed for that type; the state is the plain closure observer's `notify` over the closures of that list |
| TypedObserver.NotifyNone | patterns/observer/safe/type_observer/observer.rs:25-31 | an empty or missing list calls nothing and leaves the state alone |
| TypedObserver.NotifyOne | patterns/observer/safe/type_observer/observer.rs:25-31 | a list of one subscriber runs exactly its closure, once |
| TypedObserver.UnsubscribedNeverCalled | patterns/observer/safe/type_observer/observer.rs:25-41 | after `unsubscribe(h)`, no `notify` of any event calls `h`'s callback |
| TypedObserver.SubscribeThenUnsubscribe | patterns/observer/safe/type_observer/observer.rs:17-41 | unsubscribing the handle `subscribe` just returned restores every list (a type that had no key keeps an empty list) |
| TypedObserver.SubscriptionsDiffer | patterns/observer/safe/type_observer/subscriber.rs:47-51 | two subscriptions never give `==` handles, even with the same type and closure |
| TypedObserverScenarios.DemoText | patterns/observer/safe/type_observer/main.rs:7-26 | the demo's text is `"name: ilopX, num: 100"`: the unsubscribed printer misses `num: 200` |
| TypedObserverScenarios.DemoOnText | patterns/observer/safe/type_observer/main.rs:7-26 | the same text from any observer with no lists for the two event types |
| TypedObserverScenarios.SubscribeNotifyText | patterns/observer/safe/type_observer/test.rs:7-16 | the collector receives `"rust"` |
| TypedObserverScenarios.SubscribeNotifyOnText | patterns/observer/safe/type_observer/test.rs:7-16 | the same from any observer with no lists for the two event types |
| TypedObserverScenarios.UnsubscribeTestFlag | patterns/observer/safe/type_observer/test.rs:18-28 | a subscriber removed before the notify never sets the flag |
| TypedObserverScenarios.UnsubscribeTestOnFlag | patterns/observer/safe/type_observer/test.rs:18-28 | the same from any observer with no lists for the two event types |
| TypedObserverScenarios.TwoEventsCount | patterns/observer/safe/type_observer/test.rs:30-42 | the two event types' subscribers count independently: 10 + 5 |
| TypedObserverScenarios.TwoEventsOnCount | patterns/observer/safe/type_observer/test.rs:30-42 | the same from any observer with no lists for the two event types |
| PlainObserver.New | patterns/observer/value/main.rs:20-24 | no subscribers |
| PlainObserver.Subscribe | patterns/observer/value/main.rs:26-28 | exactly one closure more, at the end; the others keep their places |
| PlainObserver.Notify | patterns/observer/value/main.rs:30-34 | with no subscribers the state is left alone; otherwise the last subscriber runs last, on the state all earlier ones left |
| PlainObserver.RunAllAppend | patterns/observer/value/main.rs:30-34 | running `a + b` runs `a` and then `b` |
| PlainObserver.NotifyAfterSubscribe | patterns/observer/value/main.rs:26-34 | a closure subscribed last runs once, after all earlier ones |
| PlainObserver.NotifyEmpty | patterns/observer/value/main.rs:30-34 | with no subscribers, `notify` leaves the captured state alone |
| PlainObserver.DemoAccumulates | patterns/observer/value/main.rs:3-13 | `main` accumulates `[1, 2]` |
| ValueObserver.Clone | patterns/observer/value_observer/main.rs:79-85 | a clone is `==` to the original |
| ValueObserver.New | patterns/observer/value_observer/main.rs:28-32 | no subscribers |
| ValueObserver.Subscribe | patterns/observer/value_observer/main.rs:34-40 | one fresh subscriber at the end of the list; the returned handle equals it and no earlier entry |
| ValueObserver.Unsubscribe | patterns/observer/value_observer/main.rs:42-44 | every copy of the handle goes and every other subscriber stays; an unknown handle changes nothing; only the list changes, so the closures behind the remaining handles are the same |
| ValueObserver.UnsubscribeKeepsOrder | patterns/observer/value_observer/main.rs:42-44 | the remaining subscribers keep their order |
| ValueObserver.SubscribeThenUnsubscribe | patterns/observer/value_observer/main.rs:34-44 | unsubscribing the handle `subscribe` returned restores the list |
| ValueObserver.Erase | patterns/observer/value_observer/main.rs:46-50 | the closures `notify` reaches, position by position, behind the handles |
| ValueObserver.EraseSubscribe | patterns/observer/value_observer/main.rs:34-40 | subscribing with handles is subscribing the same closure to the plain list |
| ValueObserver.Notify | patterns/observer/value_observer/main.rs:46-50 | every subscriber is called once, in list order, and the captured state ends as the plain observer over the same closures leaves it |
| ValueObserver.Demo | patterns/observer/value_observer/main.rs:5-20 | `main` accumulates `[1, 2]`: the notifies after `unsubscribe` reach no one |
| ToggleStates.Name | patterns/state/state_return/main.rs:48-76 | each state's name is "first", "second" or "third" |
| ToggleStates.ParseName | patterns/state/state_return/main.rs:48-76 | the name tells the state: reading it back gives the state that printed it |
| ToggleStates.NameInjective | patterns/state/state_return/main.rs:48-76 | two states print the same name exactly when they are the same state |
| StateReturn.New | patterns/state/state_return/main.rs:21-25 | a new toggle is in the first state |
| StateReturn.NextState | patterns/state/state_return/main.rs:52-80 | each state returns its successor in the cycle first, second, third, first |
| StateReturn.Switch | patterns/state/state_return/main.rs:27-31 | panics exactly on an empty toggle; otherwise moves one step along the cycle |
| StateReturn.ToggleName | patterns/state/state_return/main.rs:33-35 | panics exactly on an empty toggle; otherwise one of the three names, and it reads back as the current state |
| StateReturn.SwitchTimesFrom | patterns/state/state_return/main.rs:27-31 | `n` switches from any state never panic and land `n` steps along the cycle |
| StateReturn.SwitchTimesFromNew | patterns/state/state_return/main.rs:21-31 | from `new`, `n` switches land on state `n mod 3` |
| StateReturn.SwitchPeriod | patterns/state/state_return/main.rs:27-31 | any multiple of three switches brings a non-empty toggle back to where it started |
| StateReturn.DemoNames | patterns/state/state_return/main.rs:1-13 | `main` sees first, second, third, first |
| StateInside.New | patterns/state/state_inside/main.rs:21-25 | a new toggle is in the first state |
| StateInside.SetState | patterns/state/state_inside/main.rs:36-38 | whatever was there, the toggle now holds the given state |
| StateInside.NextState | patterns/state/state_inside/main.rs:54-81 | each state sets its successor on the toggle |
| StateInside.Switch | patterns/state/state_inside/main.rs:27-30 | panics exactly on an empty toggle; otherwise moves one step along the cycle |
| StateInside.ToggleName | patterns/state/state_inside/main.rs:32-34 | panics exactly on an empty toggle; otherwise a name that reads back as the current state |
| StateInside.SwitchAgrees | patterns/state/state_inside/main.rs:27-30 | both designs switch alike: having the state set its successor is the same step as returning it |
| StateInside.DemoNames | patterns/state/state_inside/main.rs:1-13 | `main` sees first, second, third, and the third switch is back at `new` |

## Left out

- Type erasure: `TypeId`, `Any`, `downcast_ref` and the `transmute` of closures are not modelled
  as such. An event is a tag with a payload, and `TypedObserver.Cast` models the downcast as an
  `Option`, where `None` stands for the `unwrap` panic.
- Closures are pure functions of the event and of the state they capture. Captured `RefCell`,
  `Cell` and `&mut` state becomes that explicit state, or, in the event bus, the output trace.
- `Listener::clone`'s panic on a third strong reference (`patterns/observer/type_observer/observer.rs:98-110`)
  is not modelled. The registry keeps one clone per activation, and the model has no reference
  counts.
- Re-entrant borrows are not modelled. During `send` the observer's registry is mutably borrowed
  (`patterns/observer/type_observer/observer.rs:34`) and the running listener's own cell is mutably
  borrowed (`observer.rs:65`). A body would hit a `RefCell` double-borrow panic if it changed its own
  observer's registry, called `send` on its own observer, or activated or deactivated its own
  listener (`observer.rs:72` and `77`). The model has no such body.
- A listener body that pops from the pool it is given is not modelled. The body gets the
  `&mut EventPool` (`patterns/observer/type_observer/even_pool.rs:30-32`) and could remove
  pending events. Model bodies only push, so the FIFO and breadth-first results assume that.
- A listener body that activates, deactivates or sends on a different observer it captured is not
  modelled (`patterns/observer/type_observer/observer.rs:33-35` and `69-82`). Such a body would change
  another registry, or start a nested drain, in the middle of a send. Model bodies are pure
  functions of the event and the output so far.
- `ListenerMap.Drain` and `Observer.Send` carry a fuel bound on the number of pops. A send whose
  listeners keep sending forever never returns in the source and answers `None` here.
  `ListenerMap.DrainFuelMonotone` shows that the bound never changes a result that was reached.
- Capacities (`with_capacity(10)`, `DEFAULT_BUFFER_SIZE`, the buffer size of `from_listener`) have
  no observable effect and are not modelled.
- `HashMap` and `BTreeMap` iteration order is never observed by the source. The maps are Dafny
  `map`s.
- Lifetimes (`'a`) and `unsafe` blocks are not modelled. The safe and unsafe twins, and the
  in-file copy of the typed observer in `safe/type_observer/main.rs`, behave the same and share
  one model.
- The `i32`/`u32` values of the examples are unbounded `int`/`nat` (`Payload.Signed` and
  `Payload.Num`), so their wrap-around and overflow panics are not modelled. None of the examples
  comes near an overflow.
- `Listener::notify` and `Listener::event_type` are folded into the drain loop and into the
  listener cell. `Observer.EventType` reads the type without a contract of its own.
- The `new_listener` and `to_vec` tests (`patterns/observer/type_observer/main.rs:250-277`) call
  a listener's closure directly, outside any observer. They are not modelled.
- StateReturn.Switch: the state is swapped atomically. The source's moment in which
  `self.state` is `None` while `next_state` runs cannot be seen, because `next_state` ignores
  the toggle. `StateInside.Switch` models that moment explicitly.
- Module wiring is not modelled: the `mod` lines and the `use` lines. Some of them name modules
  the crate does not declare: `observer_map.rs` and `even_pool.rs` import `crate::event`, which
  is not in the source, and `observer.rs:2` imports `crate::listener_map`, while
  `main.rs:3-6` declares `observer_map` but not `listener_map`.
- ObserverMap: `patterns/observer/type_observer/observer_map.rs` is a line-for-line twin of
  `listener_map.rs` (`send` for `call`, `send_to_all_listeners` for `call_listeners_for`). It is
  modelled by `ListenerMap`.

## Findings

| source | as written | input that shows it | evidently intended | confidence | as-written member | corrected member |
|---|---|---|---|---|---|---|
| patterns/observer/type_observer/main.rs:15 | `assert_eq!("first(555) second third", text)` | `main` sends `RedEvent` and then `FirstEvent { val: 555 }`. The listeners build `"first(555),  second,  third, "`, because the `format!` strings at lines 51, 59 and 67 add `", "` and a space | the assertion's literal should be the text the listeners build, `"first(555),  second,  third, "` | not executed | ObserverScenarios.DemoAssertionAsWrittenFails | ObserverScenarios.DemoRunText |

=== FILE: event_pool.dfy ===
/** `EventPool`: the FIFO queue of pending events of one dispatch session. */
module EventPool {
  import opened Wrappers
  import Lists

  datatype Pool<E> = Pool(events: seq<E>)

  /** `EventPool::new`: an empty pool. */
  function New<E>(): (p: Pool<E>)
    ensures Pop(p).0 == None
  {
    Pool([])
  }

  /** `EventPool::from(e)`: a pool holding exactly `e`. */
  function From<E>(e: E): (p: Pool<E>)
    ensures Pop(p).0 == Some(e)
    ensures Pop(Pop(p).1).0 == None
  {
    Pool([e])
  }

  /** `send`: `push_back` of one event. */
  function Send<E>(p: Pool<E>, e: E): (r: Pool<E>)
    ensures |r.events| == |p.events| + 1
    ensures r.events[..|p.events|] == p.events && r.events[|p.events|] == e
  {
    Pool(p.events + [e])
  }

  /** `pop`: `pop_front`; `None` leaves an empty pool as it is. */
  function Pop<E>(p: Pool<E>): (r: (Option<E>, Pool<E>))
    ensures r.0.None? <==> |p.events| == 0
    ensures r.0.None? ==> r.1 == p
    ensures r.0.Some? ==> [r.0.value] + r.1.events == p.events
  {
    if |p.events| == 0 then (None, p) else (Some(p.events[0]), Pool(p.events[1..]))
  }

  /** Several `send` calls in a row, as a listener body does when it emits more than one event. */
  function SendAll<E>(p: Pool<E>, es: seq<E>): (r: Pool<E>)
    ensures r.events == p.events + es
    decreases |es|
  {
    if |es| == 0 then p
    else
      var r := SendAll(Send(p, es[0]), es[1..]);
      assert p.events + es == p.events + [es[0]] + es[1..];
      r
  }

  /** An interleaving of `send` and `pop` calls on one pool. */
  datatype Op<E> = SendOp(e: E) | PopOp

  /** The events the `send` calls of `ops` push, in order. */
  function Sent<E>(ops: seq<Op<E>>): seq<E>
  {
    if |ops| == 0 then [] else SentBy(ops[0]) + Sent(ops[1..])
  }

  function SentBy<E>(op: Op<E>): seq<E>
  {
    if op.SendOp? then [op.e] else []
  }

  /** One call: the pool afterwards and the event it returned, if any. */
  function Step<E>(p: Pool<E>, op: Op<E>): (r: (Pool<E>, seq<E>))
    ensures r.1 + r.0.events == p.events + SentBy(op)
  {
    if op.SendOp? then (Send(p, op.e), [])
    else if |p.events| == 0 then (p, [])
    else (Pool(p.events[1..]), [p.events[0]])
  }

  /** Runs `ops` from `p`: the final pool and the events the successful `pop` calls returned. */
  function Run<E>(p: Pool<E>, ops: seq<Op<E>>): (Pool<E>, seq<E>)
    decreases |ops|
  {
    if |ops| == 0 then (p, [])
    else
      var first := Step(p, ops[0]);
      var rest := Run(first.0, ops[1..]);
      (rest.0, first.1 + rest.1)
  }

  /**
   * FIFO: whatever the interleaving, the popped events followed by what is
   * still pending are exactly the initial contents followed by everything sent,
   * in sending order.
   */
  lemma {:induction false} RunIsFifo<E>(p: Pool<E>, ops: seq<Op<E>>)
    ensures Run(p, ops).1 + Run(p, ops).0.events == p.events + Sent(ops)
    decreases |ops|
  {
    if |ops| > 0 {
      var first := Step(p, ops[0]);
      var rest := Run(first.0, ops[1..]);
      RunIsFifo(first.0, ops[1..]);
      assert Run(p, ops) == (rest.0, first.1 + rest.1);
      assert Sent(ops) == SentBy(ops[0]) + Sent(ops[1..]);
      Lists.Assoc(first.1, rest.1, rest.0.events);
      Lists.Assoc(first.1, first.0.events, Sent(ops[1..]));
      Lists.Assoc(p.events, SentBy(ops[0]), Sent(ops[1..]));
    }
  }
}

=== FILE: events.dfy ===
/**
 * Events and listener behaviour shared by the nested event bus.
 *
 * Rust distinguishes event kinds by `TypeId`; here every event carries a `Tag`
 * naming its kind, and a payload. A listener closure is a pure function of the
 * event it receives and of the output written so far (the closures' captured
 * mutable state), answering the events it sends into the pool and the output
 * it appends.
 */
module Events {

  /** Stands for `TypeId`: one tag per concrete event kind. */
  type Tag = nat

  /** Identity of a listener's shared cell (`Rc::ptr_eq`). */
  type ListenerId = nat

  /** An event's data: `Num` for the `u32` fields, `Signed` for the `i32` ones. */
  datatype Payload = NoData | Num(n: nat) | Signed(i: int) | Flag(b: bool) | Text(s: string)

  datatype Event = Event(tag: Tag, payload: Payload)

  /** What one listener invocation did: events sent through the pool, text appended to the output. */
  datatype Reaction = Reaction(emitted: seq<Event>, output: seq<string>)

  /** A listener body: called with the event and the output written so far. */
  type Behaviour = (Event, seq<string>) -> Reaction

  /** A listener body that does nothing. */
  const Quiet: Reaction := Reaction([], [])

  /** Decimal digits of a natural number, as `format!("{}", n)` prints it. */
  function NatToString(n: nat): (r: string)
    ensures |r| >= 1
    ensures forall i :: 0 <= i < |r| ==> '0' <= r[i] <= '9'
    ensures n >= 10 ==> r[0] != '0'
  {
    var d := ['0' + (n % 10) as char];
    if n < 10 then d else NatToString(n / 10) + d
  }

  /** Parsing the digits back gives the number: the rendering loses nothing. */
  function DigitsValue(s: string): int
  {
    if |s| == 0 then 0 else DigitsValue(s[..|s| - 1]) * 10 + (s[|s| - 1] as int - '0' as int)
  }

  lemma {:induction false} NatToStringRoundTrip(n: nat)
    ensures DigitsValue(NatToString(n)) == n
  {
    var r := NatToString(n);
    assert r[..|r| - 1] == if n < 10 then [] else NatToString(n / 10);
    if n >= 10 {
      NatToStringRoundTrip(n / 10);
    }
  }

  /** `format!("{}", i)` of a signed number: a `-` before the digits of a negative one. */
  function IntToString(i: int): (r: string)
    ensures |r| >= 1
    ensures i < 0 <==> r[0] == '-'
    ensures i < 0 ==> |r| >= 2
    ensures forall k :: (if i < 0 then 1 else 0) <= k < |r| ==> '0' <= r[k] <= '9'
    ensures |r| > (if i < 0 then 2 else 1) ==> r[if i < 0 then 1 else 0] != '0'
  {
    if i < 0 then "-" + NatToString(-i) else NatToString(i)
  }

  /** Reading a signed rendering back: an optional `-`, then digits. */
  function SignedValue(s: string): int
  {
    if |s| > 0 && s[0] == '-' then -DigitsValue(s[1..]) else DigitsValue(s)
  }

  /** The sign and the digits together give the number back. */
  lemma IntToStringRoundTrip(i: int)
    ensures SignedValue(IntToString(i)) == i
  {
    if i < 0 {
      assert IntToString(i)[1..] == NatToString(-i);
      NatToStringRoundTrip(-i);
    } else {
      NatToStringRoundTrip(i);
    }
  }

  /** `bool::to_string`. */
  function BoolToString(b: bool): (r: string)
    ensures b <==> r == "true"
    ensures !b <==> r == "false"
  {
    if b then "true" else "false"
  }

  /** Concatenation of an output trace (the `String` the closures push onto). */
  function Concat(pieces: seq<string>): (r: string)
  {
    if |pieces| == 0 then "" else Concat(pieces[..|pieces| - 1]) + pieces[|pieces| - 1]
  }
}

=== FILE: listener_map.dfy ===
/**
 * `ListenerMap` (and its twin `ObserverMap`): the registry from event kind to
 * the ordered listener list, and the breadth-first drain loop `call`/`send`.
 *
 * The registry is a value here: the source holds `borrow_mut()` on the map for
 * the whole drain, so listener bodies can never change it mid-dispatch (they
 * would panic). What else a body can do through its `&mut EventPool` or
 * through other observers it captured is not part of this module: bodies are
 * pure functions from the event and the output so far to a reaction.
 */
module ListenerMap {
  import opened Wrappers
  import opened Events
  import Lists
  import EventPool

  /** `HashMap<TypeId, Vec<Listener>>`, with listeners named by identity. */
  type Registry = map<Tag, seq<ListenerId>>

  /** The listener bodies reachable from the registry: the `fun` of each listener cell. */
  type Behaviours = map<ListenerId, Behaviour>

  /** The list dispatch sees for kind `t`: a missing key reads as no listeners. */
  function Bucket(reg: Registry, t: Tag): seq<ListenerId>
  {
    if t in reg then reg[t] else []
  }

  /** Every listener in the registry has a body (each bucket entry is a live `Rc`). */
  predicate Live(reg: Registry, funs: Behaviours)
  {
    forall t, l :: t in reg && l in reg[t] ==> l in funs
  }

  /** `ListenerMap::new`: no kind has listeners. */
  function New(): (reg: Registry)
    ensures forall t :: Bucket(reg, t) == []
  {
    map[]
  }

  /** `add`: append to the bucket of the listener's kind, creating `[l]` when the key is absent. */
  function Add(reg: Registry, listener: ListenerId, eventType: Tag): (r: Registry)
    ensures r.Keys == reg.Keys + {eventType}
    ensures r[eventType] == Bucket(reg, eventType) + [listener]
    ensures forall t :: t in reg && t != eventType ==> r[t] == reg[t]
  {
    if eventType in reg then reg[eventType := reg[eventType] + [listener]]
    else reg[eventType := Lists.FromListener(listener, 10)]
  }

  /**
   * `remove`: `entry(..).and_modify(remove_first)`. Only the bucket of the
   * listener's kind changes, and an absent key stays absent.
   */
  function Remove(reg: Registry, listener: ListenerId, eventType: Tag): (r: Registry)
    ensures r.Keys == reg.Keys
    ensures eventType in reg ==> multiset(r[eventType]) == multiset(reg[eventType]) - multiset{listener}
    ensures eventType in reg ==> Lists.SubsequenceOf(r[eventType], reg[eventType])
    ensures eventType in reg ==> r[eventType] == Lists.RemoveFirst(reg[eventType], listener)
    ensures forall t :: t in reg && t != eventType ==> r[t] == reg[t]
  {
    if eventType in reg then
      Lists.RemoveFirstKeepsOrder(reg[eventType], listener);
      reg[eventType := Lists.RemoveFirst(reg[eventType], listener)]
    else reg
  }

  /** One `listener.notify(event, pool)` call and what it did. */
  datatype Invocation = Invocation(listener: ListenerId, event: Event, reaction: Reaction)

  /** Who was called with what, forgetting what the call did. */
  datatype Target = Target(listener: ListenerId, event: Event)

  /**
   * A dispatch session: the pool, the output written so far, the events
   * popped so far and the invocations made so far.
   */
  datatype Session = Session(pool: EventPool.Pool<Event>, trace: seq<string>, dispatched: seq<Event>, log: seq<Invocation>)

  function Targets(log: seq<Invocation>): (r: seq<Target>)
    ensures |r| == |log|
  {
    seq(|log|, i requires 0 <= i < |log| => Target(log[i].listener, log[i].event))
  }

  /** Every listener of `listeners`, once each, in list order, with the same event. */
  function Calls(listeners: seq<ListenerId>, e: Event): (r: seq<Target>)
    ensures |r| == |listeners|
  {
    seq(|listeners|, i requires 0 <= i < |listeners| => Target(listeners[i], e))
  }

  /** The events a run of invocations sent into the pool, in sending order. */
  function Emitted(log: seq<Invocation>): seq<Event>
  {
    if |log| == 0 then [] else log[0].reaction.emitted + Emitted(log[1..])
  }

  /** The output a run of invocations appended, in order. */
  function Output(log: seq<Invocation>): seq<string>
  {
    if |log| == 0 then [] else log[0].reaction.output + Output(log[1..])
  }

  /**
   * The breadth-first schedule: for each dispatched event in turn, its whole
   * bucket in registration order, before anything for the next event.
   */
  function Schedule(reg: Registry, events: seq<Event>): seq<Target>
  {
    if |events| == 0 then []
    else
      var last := events[|events| - 1];
      Schedule(reg, events[..|events| - 1]) + Calls(Bucket(reg, last.tag), last)
  }

  lemma {:induction false} EmittedAppend(a: seq<Invocation>, b: seq<Invocation>)
    ensures Emitted(a + b) == Emitted(a) + Emitted(b)
    decreases |a|
  {
    if |a| == 0 {
      assert a + b == b;
    } else {
      assert (a + b)[1..] == a[1..] + b;
      EmittedAppend(a[1..], b);
    }
  }

  lemma {:induction false} OutputAppend(a: seq<Invocation>, b: seq<Invocation>)
    ensures Output(a + b) == Output(a) + Output(b)
    decreases |a|
  {
    if |a| == 0 {
      assert a + b == b;
    } else {
      assert (a + b)[1..] == a[1..] + b;
      OutputAppend(a[1..], b);
    }
  }

  /**
   * `notify_all`: each listener of the list is called once, in list order,
   * with the same event; each sees the output its predecessors wrote. The
   * list itself is only read. The answer is the record of the calls.
   */
  function NotifyAll(listeners: seq<ListenerId>, funs: Behaviours, e: Event, trace: seq<string>): (r: seq<Invocation>)
    requires forall l :: l in listeners ==> l in funs
    ensures Targets(r) == Calls(listeners, e)
    ensures forall i :: 0 <= i < |r| ==> r[i].reaction == funs[listeners[i]](e, trace + Output(r[..i]))
    decreases |listeners|
  {
    if |listeners| == 0 then []
    else
      var l := listeners[0];
      var reaction := funs[l](e, trace);
      var later := NotifyAll(listeners[1..], funs, e, trace + reaction.output);
      var r := [Invocation(l, e, reaction)] + later;
      NotifyAllStep(listeners, funs, e, trace, r);
      r
  }

  /** The contract of `NotifyAll` for a list, from the contract for its tail. */
  lemma NotifyAllStep(listeners: seq<ListenerId>, funs: Behaviours, e: Event, trace: seq<string>, r: seq<Invocation>)
    requires |listeners| > 0 && |r| > 0 && forall l :: l in listeners ==> l in funs
    requires r[0] == Invocation(listeners[0], e, funs[listeners[0]](e, trace))
    requires Targets(r[1..]) == Calls(listeners[1..], e)
    requires forall i :: 0 <= i < |r| - 1 ==> r[1..][i].reaction == funs[listeners[1..][i]](e, trace + r[0].reaction.output + Output(r[1..][..i]))
    ensures Targets(r) == Calls(listeners, e)
    ensures forall i :: 0 <= i < |r| ==> r[i].reaction == funs[listeners[i]](e, trace + Output(r[..i]))
  {
    assert r == [r[0]] + r[1..];
    assert Targets(r) == Calls(listeners, e) by {
      assert |Targets(r)| == |Calls(listeners, e)|;
      forall i | 0 <= i < |r|
        ensures Targets(r)[i] == Calls(listeners, e)[i]
      {
        if i > 0 {
          assert Targets(r[1..])[i - 1] == Calls(listeners[1..], e)[i - 1];
        }
      }
    }
    forall i | 0 <= i < |r|
      ensures r[i].reaction == funs[listeners[i]](e, trace + Output(r[..i]))
    {
      if i == 0 {
        assert r[..0] == [];
        assert trace + Output(r[..0]) == trace;
      } else {
        var tail := r[1..][..i - 1];
        assert r[..i] == [r[0]] + tail;
        assert r[..i][1..] == tail;
        assert Output(r[..i]) == r[0].reaction.output + Output(tail);
        Lists.Assoc(trace, r[0].reaction.output, Output(tail));
        assert r[1..][i - 1] == r[i] && listeners[1..][i - 1] == listeners[i];
      }
    }
  }

  /**
   * Every logged call is what its listener's body answers for its event,
   * given everything written before it, starting from `trace`.
   */
  ghost predicate Faithful(funs: Behaviours, trace: seq<string>, log: seq<Invocation>)
  {
    forall i :: 0 <= i < |log| ==>
      log[i].listener in funs && log[i].reaction == funs[log[i].listener](log[i].event, trace + Output(log[..i]))
  }

  /** Two faithful stretches of calls, the second starting where the first left the output, are one. */
  lemma FaithfulAppend(funs: Behaviours, trace: seq<string>, log: seq<Invocation>, added: seq<Invocation>)
    requires Faithful(funs, trace, log) && Faithful(funs, trace + Output(log), added)
    ensures Faithful(funs, trace, log + added)
  {
    var all := log + added;
    forall i | 0 <= i < |all|
      ensures all[i].listener in funs && all[i].reaction == funs[all[i].listener](all[i].event, trace + Output(all[..i]))
    {
      if i < |log| {
        assert all[..i] == log[..i];
      } else {
        FaithfulLater(funs, trace, log, added, i - |log|);
      }
    }
  }

  /** Call `k` of the second stretch, seen from the start of the first. */
  lemma FaithfulLater(funs: Behaviours, trace: seq<string>, log: seq<Invocation>, added: seq<Invocation>, k: nat)
    requires k < |added| && Faithful(funs, trace + Output(log), added)
    ensures var all := log + added;
      all[|log| + k].listener in funs &&
      all[|log| + k].reaction == funs[all[|log| + k].listener](all[|log| + k].event, trace + Output(all[..|log| + k]))
  {
    var all := log + added;
    assert all[|log| + k] == added[k];
    Lists.PrefixOfAppend(log, added, k);
    OutputPieces(trace, trace + Output(log), log, added[..k]);
  }

  /** The calls made for one popped event: its bucket, in order (none for an unknown kind), each answered by its body. */
  function Added(reg: Registry, funs: Behaviours, e: Event, trace: seq<string>): (r: seq<Invocation>)
    requires Live(reg, funs)
    ensures Targets(r) == Calls(Bucket(reg, e.tag), e)
    ensures Faithful(funs, trace, r)
  {
    if e.tag in reg then
      var r := NotifyAll(reg[e.tag], funs, e, trace);
      forall i | 0 <= i < |r|
        ensures r[i].listener == reg[e.tag][i] && r[i].event == e
      {
        assert Targets(r)[i] == Calls(reg[e.tag], e)[i];
      }
      r
    else []
  }

  /**
   * `call_listeners_for`: look the popped event's kind up with `get` and run
   * that bucket with the session's pool; an event whose kind has no key is
   * dropped. The log gains the bucket's calls, the pool ends with what the
   * listeners sent, in sending order, and the output ends with what they wrote.
   */
  function CallListenersFor(reg: Registry, funs: Behaviours, e: Event, s: Session): (r: Session)
    requires Live(reg, funs)
    ensures Bucket(reg, e.tag) == [] ==> r == s
    ensures var added := Added(reg, funs, e, s.trace);
      && r.log == s.log + added
      && r.pool.events == s.pool.events + Emitted(added)
      && r.trace == s.trace + Output(added)
      && r.dispatched == s.dispatched
  {
    var added := Added(reg, funs, e, s.trace);
    if Bucket(reg, e.tag) == [] then
      assert added == [] && s.log + added == s.log;
      s
    else
    Session(EventPool.SendAll(s.pool, Emitted(added)), s.trace + Output(added), s.dispatched, s.log + added)
  }

  /** One turn of the loop: `e` was popped, leaving `rest`; its listeners run. */
  function Next(reg: Registry, funs: Behaviours, s: Session, e: Event, rest: EventPool.Pool<Event>): (r: Session)
    requires Live(reg, funs)
    ensures r.dispatched == s.dispatched + [e]
    ensures var added := Added(reg, funs, e, s.trace);
      && r.log == s.log + added
      && r.pool.events == rest.events + Emitted(added)
      && r.trace == s.trace + Output(added)
  {
    CallListenersFor(reg, funs, e, Session(rest, s.trace, s.dispatched + [e], s.log))
  }

  /**
   * The `while let Some(event) = event_pool.pop()` loop, bounded by `fuel`
   * dispatched events: `None` means the fuel ran out with events still
   * pending (the source has no bound and would keep looping).
   */
  function Drain(reg: Registry, funs: Behaviours, s: Session, fuel: nat): (r: Option<Session>)
    requires Live(reg, funs)
    ensures r.Some? ==> r.value.pool.events == []
    decreases fuel
  {
    var (popped, rest) := EventPool.Pop(s.pool);
    match popped
    case None => Some(s)
    case Some(e) => if fuel == 0 then None else Drain(reg, funs, Next(reg, funs, s, e, rest), fuel - 1)
  }

  /**
   * The bookkeeping of a session started from `seed` on output `trace`: the
   * events popped so far followed by those pending are the seed followed by
   * everything the listeners sent, in sending order (FIFO); the listeners run
   * so far are the breadth-first schedule of the popped events; the output is
   * what those listeners wrote, in order; and each logged reaction is what
   * that listener's body answers, given the output written before it.
   */
  ghost predicate Wave(reg: Registry, funs: Behaviours, seed: Event, trace: seq<string>, s: Session)
  {
    && s.dispatched + s.pool.events == [seed] + Emitted(s.log)
    && Targets(s.log) == Schedule(reg, s.dispatched)
    && s.trace == trace + Output(s.log)
    && Faithful(funs, trace, s.log)
  }

  /** Popping one event and running its bucket keeps the bookkeeping. */
  lemma DispatchOneKeepsWave(reg: Registry, funs: Behaviours, seed: Event, trace: seq<string>, s: Session, e: Event, rest: EventPool.Pool<Event>)
    requires Live(reg, funs) && Wave(reg, funs, seed, trace, s)
    requires s.pool.events == [e] + rest.events
    ensures Wave(reg, funs, seed, trace, Next(reg, funs, s, e, rest))
  {
    var added := Added(reg, funs, e, s.trace);
    var next := Next(reg, funs, s, e, rest);
    assert next.log == s.log + added && next.pool.events == rest.events + Emitted(added) && next.trace == s.trace + Output(added);
    assert next.dispatched + next.pool.events == [seed] + Emitted(next.log) by {
      EmittedPieces(seed, s.dispatched, e, rest.events, s.log, added);
    }
    assert Targets(next.log) == Schedule(reg, next.dispatched) by {
      SchedulePiece(reg, s.dispatched, e, s.log, added);
    }
    assert next.trace == trace + Output(next.log) by {
      OutputPieces(trace, s.trace, s.log, added);
    }
    FaithfulAppend(funs, trace, s.log, added);
  }

  /** Output bookkeeping of one dispatch step. */
  lemma OutputPieces(trace: seq<string>, current: seq<string>, log: seq<Invocation>, added: seq<Invocation>)
    requires current == trace + Output(log)
    ensures current + Output(added) == trace + Output(log + added)
  {
    OutputAppend(log, added);
    Lists.Assoc(trace, Output(log), Output(added));
  }

  /** FIFO bookkeeping of one dispatch step. */
  lemma EmittedPieces(seed: Event, done: seq<Event>, e: Event, rest: seq<Event>,
                      log: seq<Invocation>, added: seq<Invocation>)
    requires done + ([e] + rest) == [seed] + Emitted(log)
    ensures (done + [e]) + (rest + Emitted(added)) == [seed] + Emitted(log + added)
  {
    EmittedAppend(log, added);
    Lists.Assoc(done, [e], rest + Emitted(added));
    Lists.Assoc([e], rest, Emitted(added));
    Lists.Assoc(done, [e] + rest, Emitted(added));
    Lists.Assoc([seed], Emitted(log), Emitted(added));
  }

  /** Schedule bookkeeping of one dispatch step. */
  lemma SchedulePiece(reg: Registry, done: seq<Event>, e: Event, log: seq<Invocation>, added: seq<Invocation>)
    requires Targets(log) == Schedule(reg, done)
    requires Targets(added) == Calls(Bucket(reg, e.tag), e)
    ensures Targets(log + added) == Schedule(reg, done + [e])
  {
    TargetsAppend(log, added);
    assert (done + [e])[..|done|] == done;
  }

  /** The drain loop keeps the bookkeeping, whatever the listeners do. */
  lemma {:induction false} DrainKeepsWave(reg: Registry, funs: Behaviours, seed: Event, trace: seq<string>, s: Session, fuel: nat)
    requires Live(reg, funs) && Wave(reg, funs, seed, trace, s)
    ensures Drain(reg, funs, s, fuel).Some? ==> Wave(reg, funs, seed, trace, Drain(reg, funs, s, fuel).value)
    decreases fuel
  {
    var (popped, rest) := EventPool.Pop(s.pool);
    if popped.Some? && fuel > 0 {
      DispatchOneKeepsWave(reg, funs, seed, trace, s, popped.value, rest);
      DrainKeepsWave(reg, funs, seed, trace, Next(reg, funs, s, popped.value, rest), fuel - 1);
    }
  }

  lemma TargetsAppend(a: seq<Invocation>, b: seq<Invocation>)
    ensures Targets(a + b) == Targets(a) + Targets(b)
  {
  }

  /**
   * `call(e)`: a new pool seeded with `e`, drained over the unchanging
   * registry. When it finishes, the pool is empty, the events were dispatched
   * in the order they were sent (first `e`), the listeners ran in breadth-first
   * order (all of one event's bucket before anything of the next event),
   * each reaction is what that listener's body answers given the output
   * before it, and the output is what they wrote, in that order.
   */
  function Call(reg: Registry, funs: Behaviours, e: Event, trace: seq<string>, fuel: nat): (r: Option<Session>)
    requires Live(reg, funs)
    ensures r.Some? ==> r.value.pool.events == []
    ensures r.Some? ==> r.value.dispatched == [e] + Emitted(r.value.log)
    ensures r.Some? ==> Targets(r.value.log) == Schedule(reg, r.value.dispatched)
    ensures r.Some? ==> r.value.trace == trace + Output(r.value.log)
    ensures r.Some? ==> Faithful(funs, trace, r.value.log)
  {
    var start := Session(EventPool.From(e), trace, [], []);
    DrainKeepsWave(reg, funs, e, trace, start, fuel);
    Drain(reg, funs, start, fuel)
  }

  /**
   * Type isolation: every call in the schedule of some events goes to a
   * listener registered for that event's own kind, with one of those events.
   */
  lemma {:induction false} ScheduleIsolated(reg: Registry, events: seq<Event>)
    ensures forall i :: 0 <= i < |Schedule(reg, events)| ==>
      Schedule(reg, events)[i].listener in Bucket(reg, Schedule(reg, events)[i].event.tag) &&
      Schedule(reg, events)[i].event in events
    decreases |events|
  {
    if |events| > 0 {
      var init := events[..|events| - 1];
      var last := events[|events| - 1];
      ScheduleIsolated(reg, init);
      var calls := Calls(Bucket(reg, last.tag), last);
      assert Schedule(reg, events) == Schedule(reg, init) + calls;
      forall i | 0 <= i < |Schedule(reg, events)|
        ensures Schedule(reg, events)[i].listener in Bucket(reg, Schedule(reg, events)[i].event.tag)
        ensures Schedule(reg, events)[i].event in events
      {
        if i < |Schedule(reg, init)| {
          assert Schedule(reg, events)[i] == Schedule(reg, init)[i];
          assert Schedule(reg, init)[i].event in init;
        } else {
          assert Schedule(reg, events)[i] == calls[i - |Schedule(reg, init)|];
        }
      }
    }
  }

  /**
   * Type isolation for a whole `call`: each listener that ran is in the bucket
   * of the kind of the event it was given.
   */
  lemma CallIsolated(reg: Registry, funs: Behaviours, e: Event, trace: seq<string>, fuel: nat)
    requires Live(reg, funs)
    ensures Call(reg, funs, e, trace, fuel).Some? ==>
      var log := Call(reg, funs, e, trace, fuel).value.log;
      forall i :: 0 <= i < |log| ==> log[i].listener in Bucket(reg, log[i].event.tag)
  {
    var r := Call(reg, funs, e, trace, fuel);
    if r.Some? {
      var log := r.value.log;
      ScheduleIsolated(reg, r.value.dispatched);
      forall i | 0 <= i < |log|
        ensures log[i].listener in Bucket(reg, log[i].event.tag)
      {
        assert Targets(log)[i] == Target(log[i].listener, log[i].event);
      }
    }
  }

  /**
   * An event whose kind has no listeners (no key, or an emptied bucket) is
   * popped and dropped: nothing runs and nothing is written.
   */
  lemma NoListenersIsNoOp(reg: Registry, funs: Behaviours, e: Event, trace: seq<string>, fuel: nat)
    requires Live(reg, funs) && Bucket(reg, e.tag) == [] && fuel >= 1
    ensures Call(reg, funs, e, trace, fuel) == Some(Session(EventPool.Pool([]), trace, [e], []))
  {
    var start := Session(EventPool.From(e), trace, [], []);
    var popped := EventPool.Pop(start.pool);
    assert popped == (Some(e), EventPool.Pool([]));
    var next := Next(reg, funs, start, e, popped.1);
    assert next == Session(EventPool.Pool([]), trace, [e], []);
    assert Drain(reg, funs, next, fuel - 1) == Some(next);
  }

  /**
   * Dispatch reads the registry only through `Bucket`: two registries with the
   * same buckets (for instance, one with a kind mapped to `[]` and one without
   * that key) drain every session identically.
   */
  lemma {:induction false} SameBucketsSameDrain(reg1: Registry, reg2: Registry, funs: Behaviours, s: Session, fuel: nat)
    requires Live(reg1, funs) && Live(reg2, funs)
    requires forall t :: Bucket(reg1, t) == Bucket(reg2, t)
    ensures Drain(reg1, funs, s, fuel) == Drain(reg2, funs, s, fuel)
    decreases fuel
  {
    var (popped, rest) := EventPool.Pop(s.pool);
    if popped.Some? && fuel > 0 {
      var e := popped.value;
      assert Added(reg1, funs, e, s.trace) == Added(reg2, funs, e, s.trace);
      assert Next(reg1, funs, s, e, rest) == Next(reg2, funs, s, e, rest);
      SameBucketsSameDrain(reg1, reg2, funs, Next(reg1, funs, s, e, rest), fuel - 1);
    }
  }

  /** More fuel never changes a finished drain. */
  lemma {:induction false} DrainFuelMonotone(reg: Registry, funs: Behaviours, s: Session, fuel: nat, more: nat)
    requires Live(reg, funs) && fuel <= more
    requires Drain(reg, funs, s, fuel).Some?
    ensures Drain(reg, funs, s, more) == Drain(reg, funs, s, fuel)
    decreases fuel
  {
    var (popped, rest) := EventPool.Pop(s.pool);
    if popped.Some? {
      DrainFuelMonotone(reg, funs, Next(reg, funs, s, popped.value, rest), fuel - 1, more - 1);
    }
  }

  /**
   * `remove` of the only listener of a kind leaves the key mapped to an empty
   * list; that dispatches exactly like the key being absent.
   */
  lemma RemoveLastListener(reg: Registry, funs: Behaviours, l: ListenerId, t: Tag, s: Session, fuel: nat)
    requires t in reg && reg[t] == [l] && Live(reg, funs)
    ensures t in Remove(reg, l, t) && Remove(reg, l, t)[t] == []
    ensures Live(Remove(reg, l, t), funs) && Live(reg - {t}, funs)
    ensures Drain(Remove(reg, l, t), funs, s, fuel) == Drain(reg - {t}, funs, s, fuel)
  {
    var r := Remove(reg, l, t);
    assert multiset(r[t]) == multiset{};
    assert forall u :: Bucket(r, u) == Bucket(reg - {t}, u);
    SameBucketsSameDrain(r, reg - {t}, funs, s, fuel);
  }

  /** `remove` undoes `add` of a listener not already in its bucket, bucket by bucket. */
  lemma RemoveUndoesAdd(reg: Registry, l: ListenerId, t: Tag)
    requires l !in Bucket(reg, t)
    ensures forall u :: Bucket(Remove(Add(reg, l, t), l, t), u) == Bucket(reg, u)
  {
    Lists.RemoveFirstOfAppended(Bucket(reg, t), l);
  }
}

=== FILE: lists.dfy ===
/**
 * Operations on listener and subscriber lists: `Vec::from_listener`,
 * `Iterator::position`, `VecListeners::remove_first` (first identity-equal entry)
 * and `Vec::retain` (every identity-equal entry).
 */
module Lists {
  import opened Wrappers

  /** Number of occurrences of `x` in `s`. */
  function Count<T(==)>(s: seq<T>, x: T): nat
  {
    multiset(s)[x]
  }

  /** `a` can be obtained from `b` by deleting elements (relative order kept). */
  predicate SubsequenceOf<T(==)>(a: seq<T>, b: seq<T>)
    decreases |b|
  {
    if |a| == 0 then true
    else if |b| == 0 then false
    else if a[0] == b[0] then SubsequenceOf(a[1..], b[1..])
    else SubsequenceOf(a, b[1..])
  }

  lemma Assoc<T>(a: seq<T>, b: seq<T>, c: seq<T>)
    ensures (a + b) + c == a + (b + c)
  {
  }

  /** `Vec::from_listener(l, n)`: a fresh list holding exactly `l`; `n` is a capacity only. */
  function FromListener<T>(listener: T, bufferSize: nat): (r: seq<T>)
    ensures |r| == 1 && r[0] == listener
  {
    [listener]
  }

  /** `iter().position(|a| a == x)`: the least index holding `x`, if any. */
  function IndexOf<T(==)>(s: seq<T>, x: T): (r: Option<nat>)
    ensures r.None? <==> x !in s
    ensures r.Some? ==> r.value < |s| && s[r.value] == x && x !in s[..r.value]
  {
    if |s| == 0 then None
    else if s[0] == x then Some(0)
    else
      match IndexOf(s[1..], x)
      case None => None
      case Some(i) =>
        assert s[..i + 1] == [s[0]] + s[1..][..i];
        Some(i + 1)
  }

  /** `remove_first`: drop the first entry equal to `x`; no-op when there is none. */
  function RemoveFirst<T(==)>(s: seq<T>, x: T): (r: seq<T>)
    ensures x !in s ==> r == s
    ensures x in s ==> |r| == |s| - 1
    ensures multiset(r) == multiset(s) - multiset{x}
  {
    match IndexOf(s, x)
    case None => s
    case Some(i) =>
      assert s == s[..i] + [s[i]] + s[i + 1..];
      s[..i] + s[i + 1..]
  }

  /** A prefix of `a + b` reaching into `b` is `a` followed by a prefix of `b`. */
  lemma PrefixOfAppend<T>(a: seq<T>, b: seq<T>, k: nat)
    requires k <= |b|
    ensures (a + b)[..|a| + k] == a + b[..k]
  {
  }

  /** Removing the first copy of an entry appended to a list without it gives the list back. */
  lemma RemoveFirstOfAppended<T>(s: seq<T>, x: T)
    requires x !in s
    ensures RemoveFirst(s + [x], x) == s
  {
    assert (s + [x])[..|s|] == s;
  }

  /** `retain(|v| v != x)`: drop every entry equal to `x`. */
  function RemoveAll<T(==)>(s: seq<T>, x: T): (r: seq<T>)
    ensures x !in r
    ensures forall i :: 0 <= i < |r| ==> r[i] in s && r[i] != x
    ensures forall i :: 0 <= i < |s| && s[i] != x ==> s[i] in r
    ensures x !in s ==> r == s
    ensures multiset(r) == multiset(s)[x := 0]
    ensures |r| == |s| - Count(s, x)
  {
    if |s| == 0 then []
    else
      assert s == [s[0]] + s[1..];
      if s[0] == x then RemoveAll(s[1..], x)
      else [s[0]] + RemoveAll(s[1..], x)
  }

  /** The removed position is the first occurrence, and everything else keeps its place. */
  lemma RemoveFirstShape<T>(s: seq<T>, x: T)
    requires x in s
    ensures exists i :: 0 <= i < |s| && s[i] == x && x !in s[..i] && RemoveFirst(s, x) == s[..i] + s[i + 1..]
  {
    var i := IndexOf(s, x).value;
    assert s[i] == x && x !in s[..i];
  }

  lemma {:induction false} SubsequenceOfSelf<T>(s: seq<T>)
    ensures SubsequenceOf(s, s)
    decreases |s|
  {
    if |s| > 0 {
      SubsequenceOfSelf(s[1..]);
    }
  }

  /** Deleting one position keeps the remaining entries in their relative order. */
  lemma {:induction false} DeleteAtIsSubsequence<T>(s: seq<T>, i: nat)
    requires i < |s|
    ensures SubsequenceOf(s[..i] + s[i + 1..], s)
    decreases i
  {
    var r := s[..i] + s[i + 1..];
    if i == 0 {
      assert r == s[1..];
      if |r| > 0 && r[0] == s[0] {
        SubsequenceOfSelf(r);
        DropFrontSubsequence(r, s[1..]);
      } else {
        SubsequenceOfSelf(r);
      }
    } else {
      DeleteAtIsSubsequence(s[1..], i - 1);
      assert r[0] == s[0];
      assert r[1..] == s[1..][..i - 1] + s[1..][i..];
    }
  }

  /** Dropping the front of `a` keeps it a subsequence of `b`. */
  lemma {:induction false} DropFrontSubsequence<T>(a: seq<T>, b: seq<T>)
    requires |a| > 0 && SubsequenceOf(a, b)
    ensures SubsequenceOf(a[1..], b)
    decreases |b|, 1
  {
    if a[0] == b[0] {
      SubsequenceOfTail(a[1..], b);
    } else {
      DropFrontSubsequence(a, b[1..]);
      SubsequenceOfTail(a[1..], b);
    }
  }

  /** A subsequence of `b[1..]` is a subsequence of `b`. */
  lemma {:induction false} SubsequenceOfTail<T>(a: seq<T>, b: seq<T>)
    requires |b| > 0 && SubsequenceOf(a, b[1..])
    ensures SubsequenceOf(a, b)
    decreases |b|, 0
  {
    if |a| > 0 && a[0] == b[0] {
      DropFrontSubsequence(a, b[1..]);
    }
  }

  /** `remove_first` keeps the relative order of the entries it does not delete. */
  lemma RemoveFirstKeepsOrder<T>(s: seq<T>, x: T)
    ensures SubsequenceOf(RemoveFirst(s, x), s)
  {
    match IndexOf(s, x)
    case None => SubsequenceOfSelf(s);
    case Some(i) => DeleteAtIsSubsequence(s, i);
  }

  /** `retain` keeps the relative order of the entries it keeps. */
  lemma {:induction false} RemoveAllKeepsOrder<T>(s: seq<T>, x: T)
    ensures SubsequenceOf(RemoveAll(s, x), s)
    decreases |s|
  {
    if |s| > 0 {
      RemoveAllKeepsOrder(s[1..], x);
      if s[0] == x {
        SubsequenceOfTail(RemoveAll(s[1..], x), s);
      } else {
        var r := RemoveAll(s, x);
        assert r[1..] == RemoveAll(s[1..], x);
      }
    }
  }

  /** `retain` distributes over concatenation. */
  lemma {:induction false} RemoveAllAppend<T>(a: seq<T>, b: seq<T>, x: T)
    ensures RemoveAll(a + b, x) == RemoveAll(a, x) + RemoveAll(b, x)
    decreases |a|
  {
    if |a| > 0 {
      assert (a + b)[0] == a[0];
      assert (a + b)[1..] == a[1..] + b;
      RemoveAllAppend(a[1..], b, x);
      if a[0] != x {
        Assoc([a[0]], RemoveAll(a[1..], x), RemoveAll(b, x));
      }
    } else {
      assert a + b == b;
    }
  }

  /** `remove_first` and `retain` agree when the entry occurs at most once. */
  lemma RemoveFirstIsRemoveAllWhenUnique<T>(s: seq<T>, x: T)
    requires Count(s, x) <= 1
    ensures RemoveFirst(s, x) == RemoveAll(s, x)
  {
    if x in s {
      var i := IndexOf(s, x).value;
      var pre, post := s[..i], s[i + 1..];
      assert s == pre + [x] + post;
      OnlyOccurrence(pre, x, post);
      assert RemoveFirst(s, x) == pre + post;
      RemoveAllOfSplit(pre, x, post);
    }
  }

  lemma RemoveAllOfSplit<T>(pre: seq<T>, x: T, post: seq<T>)
    requires x !in pre && x !in post
    ensures RemoveAll(pre + [x] + post, x) == pre + post
  {
    assert RemoveAll([x], x) == [] by {
      assert [x][1..] == [];
    }
    RemoveAllAppend(pre + [x], post, x);
    RemoveAllAppend(pre, [x], x);
    assert RemoveAll(pre + [x], x) == pre + [];
    assert pre + [] == pre;
  }

  lemma OnlyOccurrence<T>(pre: seq<T>, x: T, post: seq<T>)
    requires Count(pre + [x] + post, x) <= 1
    ensures x !in post
  {
    assert multiset(pre + [x] + post) == multiset(pre) + multiset{x} + multiset(post);
  }

  /** With a duplicate the two removals differ: `retain` drops both copies. */
  lemma RemoveFirstDiffersOnDuplicates()
    ensures RemoveFirst([7, 7], 7) == [7]
    ensures RemoveAll([7, 7], 7) == []
  {
    assert IndexOf([7, 7], 7) == Some(0);
    assert [7, 7][1..] == [7];
  }
}

=== FILE: observer.dfy ===
/**
 * `Observer` and `Listener` of the nested event bus: listener cells, their
 * activation into one observer's registry, and sending.
 *
 * `Rc<RefCell<ListenerMap>>` and `Rc<RefCell<ListenerRc>>` are shared cells;
 * the model keeps them in a `World`: registries by observer identity, listener
 * cells by listener identity. Fresh identities come from counters, as
 * `Rc::new` always yields an allocation no other handle shares.
 */
module Observer {
  import opened Wrappers
  import opened Events
  import Lists
  import ListenerMap

  /** Identity of an observer's shared registry cell. */
  type ObserverId = nat

  /** `ListenerRc`: the kind the listener accepts, the registry it is active in, its body. */
  datatype ListenerCell = ListenerCell(eventType: Tag, parent: Option<ObserverId>, fun: Behaviour)

  datatype World = World(
    maps: map<ObserverId, ListenerMap.Registry>,
    cells: map<ListenerId, ListenerCell>,
    nextObserver: nat,
    nextListener: nat)

  /** Nothing allocated yet. */
  function Empty(): (w: World)
    ensures Wf(w)
  {
    World(map[], map[], 0, 0)
  }

  /** The bucket of observer `o` for kind `t`. */
  function BucketOf(w: World, o: ObserverId, t: Tag): seq<ListenerId>
    requires o in w.maps
  {
    ListenerMap.Bucket(w.maps[o], t)
  }

  /**
   * The invariant every reachable world keeps: identities below their
   * counters; a bucket holds only live listeners of its own kind whose parent
   * is that observer; an active listener sits exactly once in its parent's
   * bucket for its kind.
   */
  predicate Wf(w: World)
  {
    Bounded(w) && BucketsSound(w) && ParentsSound(w)
  }

  /** Identities below their counters. */
  predicate Bounded(w: World)
  {
    && (forall o :: o in w.maps ==> o < w.nextObserver)
    && (forall l :: l in w.cells ==> l < w.nextListener)
  }

  /** A bucket holds only live listeners of its own kind whose parent is that observer. */
  predicate BucketsSound(w: World)
  {
    forall o, t, l :: o in w.maps && t in w.maps[o] && l in w.maps[o][t] ==>
      l in w.cells && w.cells[l].eventType == t && w.cells[l].parent == Some(o)
  }

  /** An active listener sits exactly once in its parent's bucket for its kind. */
  predicate ParentsSound(w: World)
  {
    forall l :: l in w.cells && w.cells[l].parent.Some? ==>
      w.cells[l].parent.value in w.maps &&
      Lists.Count(ListenerMap.Bucket(w.maps[w.cells[l].parent.value], w.cells[l].eventType), l) == 1
  }

  /** The body of every listener cell, as the drain loop reaches it through `notify`. */
  function Funs(w: World): (funs: ListenerMap.Behaviours)
    ensures funs.Keys == w.cells.Keys
  {
    map l | l in w.cells :: w.cells[l].fun
  }

  /** Every listener in a registry of a well-formed world has a behaviour to run. */
  lemma RegistryLive(w: World, o: ObserverId)
    requires Wf(w) && o in w.maps
    ensures ListenerMap.Live(w.maps[o], Funs(w))
  {
  }

  /** `Observer::new`: a fresh observer whose registry is empty. */
  function NewObserver(w: World): (r: (World, ObserverId))
    requires Wf(w)
    ensures Wf(r.0)
    ensures r.1 !in w.maps && r.1 in r.0.maps
    ensures forall t :: BucketOf(r.0, r.1, t) == []
    ensures r.0.cells == w.cells
    ensures forall o :: o in w.maps ==> o in r.0.maps && r.0.maps[o] == w.maps[o]
  {
    var o := w.nextObserver;
    var r := World(w.maps[o := ListenerMap.New()], w.cells, w.nextObserver + 1, w.nextListener);
    assert r.maps[o] == map[];
    (r, o)
  }

  /** `Listener::new::<T>`: a fresh, inactive listener cell for kind `eventType`. */
  function NewListener(w: World, eventType: Tag, fun: Behaviour): (r: (World, ListenerId))
    requires Wf(w)
    ensures Wf(r.0)
    ensures r.1 !in w.cells && r.1 in r.0.cells
    ensures r.0.cells[r.1] == ListenerCell(eventType, None, fun)
    ensures r.0.maps == w.maps
    ensures forall l :: l in w.cells ==> l in r.0.cells && r.0.cells[l] == w.cells[l]
  {
    var l := w.nextListener;
    (World(w.maps, w.cells[l := ListenerCell(eventType, None, fun)], w.nextObserver, w.nextListener + 1), l)
  }

  /** `Listener::event_type`: the kind fixed at construction. */
  function EventType(w: World, l: ListenerId): Tag
    requires l in w.cells
  {
    w.cells[l].eventType
  }

  /** In a well-formed world a listener is in a bucket exactly when it is active there. */
  lemma InBucketIffActive(w: World, o: ObserverId, t: Tag, l: ListenerId)
    requires Wf(w) && o in w.maps
    ensures l in BucketOf(w, o, t) <==> l in w.cells && w.cells[l].parent == Some(o) && w.cells[l].eventType == t
  {
    if l in w.cells && w.cells[l].parent == Some(o) && w.cells[l].eventType == t {
      assert Lists.Count(BucketOf(w, o, t), l) == 1;
    }
  }

  /**
   * `deactivate`: take the parent; if there was one, remove the first entry
   * identical to this listener from that registry. An inactive listener is
   * left as it is.
   */
  function Deactivate(w: World, l: ListenerId): (r: World)
    requires Wf(w) && l in w.cells
    ensures Wf(r)
    ensures l in r.cells && r.cells[l].parent == None && r.cells[l].eventType == w.cells[l].eventType
    ensures forall o, t :: o in r.maps ==> l !in BucketOf(r, o, t)
    ensures w.cells[l].parent == None ==> r == w
    ensures r.maps.Keys == w.maps.Keys && r.cells.Keys == w.cells.Keys
    ensures w.cells[l].parent.Some? ==>
      var (p, t) := (w.cells[l].parent.value, w.cells[l].eventType);
      p in w.maps && BucketOf(r, p, t) == Lists.RemoveFirst(BucketOf(w, p, t), l)
    ensures forall o, t :: o in w.maps && (w.cells[l].parent != Some(o) || t != w.cells[l].eventType) ==>
      BucketOf(r, o, t) == BucketOf(w, o, t)
    ensures forall k :: k in w.cells && k != l ==> r.cells[k] == w.cells[k]
    ensures r.nextObserver == w.nextObserver && r.nextListener == w.nextListener
  {
    var cell := w.cells[l];
    var w1 := w.(cells := w.cells[l := cell.(parent := None)]);
    match cell.parent
    case None =>
      assert w1 == w;
      w
    case Some(o) =>
      var r := w1.(maps := w1.maps[o := ListenerMap.Remove(w1.maps[o], l, cell.eventType)]);
      DeactivateKeepsWf(w, l, o, r);
      r
  }

  lemma DeactivateKeepsWf(w: World, l: ListenerId, o: ObserverId, r: World)
    requires Wf(w) && l in w.cells && w.cells[l].parent == Some(o)
    requires r == w.(cells := w.cells[l := w.cells[l].(parent := None)],
                     maps := w.maps[o := ListenerMap.Remove(w.maps[o], l, w.cells[l].eventType)])
    ensures Wf(r)
    ensures forall o', t :: o' in r.maps ==> l !in BucketOf(r, o', t)
  {
    DeactivateKeepsBuckets(w, l, o, r);
    DeactivateKeepsParents(w, l, o, r);
    InactiveInNoBucket(r, l);
  }

  /** An inactive listener sits in no bucket of any observer. */
  lemma InactiveInNoBucket(w: World, l: ListenerId)
    requires Wf(w) && l in w.cells && w.cells[l].parent == None
    ensures forall o, t :: o in w.maps ==> l !in BucketOf(w, o, t)
  {
    forall o, t | o in w.maps
      ensures l !in BucketOf(w, o, t)
    {
      InBucketIffActive(w, o, t, l);
    }
  }

  lemma DeactivateKeepsBuckets(w: World, l: ListenerId, o: ObserverId, r: World)
    requires Wf(w) && l in w.cells && w.cells[l].parent == Some(o)
    requires r == w.(cells := w.cells[l := w.cells[l].(parent := None)],
                     maps := w.maps[o := ListenerMap.Remove(w.maps[o], l, w.cells[l].eventType)])
    ensures BucketsSound(r)
  {
    var t := w.cells[l].eventType;
    assert Lists.Count(BucketOf(w, o, t), l) == 1;
    assert t in w.maps[o];
    assert multiset(r.maps[o][t]) == multiset(w.maps[o][t]) - multiset{l};
    forall o', t', k | o' in r.maps && t' in r.maps[o'] && k in r.maps[o'][t']
      ensures k in r.cells && r.cells[k].eventType == t' && r.cells[k].parent == Some(o')
    {
      if o' == o && t' == t {
        assert k in multiset(r.maps[o][t]);
        assert k in w.maps[o][t];
        assert k != l;
      } else {
        assert r.maps[o'][t'] == w.maps[o'][t'];
        assert k != l;
      }
    }
  }

  lemma DeactivateKeepsParents(w: World, l: ListenerId, o: ObserverId, r: World)
    requires Wf(w) && l in w.cells && w.cells[l].parent == Some(o)
    requires r == w.(cells := w.cells[l := w.cells[l].(parent := None)],
                     maps := w.maps[o := ListenerMap.Remove(w.maps[o], l, w.cells[l].eventType)])
    ensures ParentsSound(r)
  {
    var t := w.cells[l].eventType;
    assert t in w.maps[o];
    assert multiset(r.maps[o][t]) == multiset(w.maps[o][t]) - multiset{l};
    forall k | k in r.cells && r.cells[k].parent.Some?
      ensures r.cells[k].parent.value in r.maps
      ensures Lists.Count(ListenerMap.Bucket(r.maps[r.cells[k].parent.value], r.cells[k].eventType), k) == 1
    {
      assert k != l;
      var p := r.cells[k].parent.value;
      var tk := r.cells[k].eventType;
      assert Lists.Count(ListenerMap.Bucket(w.maps[p], tk), k) == 1;
      if p == o && tk == t {
        assert ListenerMap.Bucket(r.maps[p], tk) == r.maps[o][t];
      } else {
        assert ListenerMap.Bucket(r.maps[p], tk) == ListenerMap.Bucket(w.maps[p], tk);
      }
    }
  }

  /**
   * `activate`: deactivate first, then record the new parent and append to
   * its registry. Re-activating therefore moves the listener: afterwards it
   * sits once, at the end of the new parent's bucket for its kind, and in no
   * other bucket of any observer.
   */
  function Activate(w: World, l: ListenerId, o: ObserverId): (r: World)
    requires Wf(w) && l in w.cells && o in w.maps
    ensures Wf(r)
    ensures l in r.cells && r.cells[l].parent == Some(o) && r.cells[l].eventType == w.cells[l].eventType
    ensures forall o', t :: o' in r.maps ==> Lists.Count(BucketOf(r, o', t), l) == (if o' == o && t == w.cells[l].eventType then 1 else 0)
    ensures var t := w.cells[l].eventType; |BucketOf(r, o, t)| > 0 && BucketOf(r, o, t)[|BucketOf(r, o, t)| - 1] == l
    ensures r.maps.Keys == w.maps.Keys && r.cells.Keys == w.cells.Keys
    ensures forall k :: k in w.cells && k != l ==> r.cells[k] == w.cells[k]
  {
    var w1 := Deactivate(w, l);
    var cell := w1.cells[l];
    var w2 := w1.(cells := w1.cells[l := cell.(parent := Some(o))]);
    var r := w2.(maps := w2.maps[o := ListenerMap.Add(w2.maps[o], l, cell.eventType)]);
    ActivateKeepsWf(w1, l, o, r);
    r
  }

  lemma ActivateKeepsWf(w: World, l: ListenerId, o: ObserverId, r: World)
    requires Wf(w) && l in w.cells && o in w.maps && w.cells[l].parent == None
    requires forall o', t :: o' in w.maps ==> l !in BucketOf(w, o', t)
    requires r == w.(cells := w.cells[l := w.cells[l].(parent := Some(o))],
                     maps := w.maps[o := ListenerMap.Add(w.maps[o], l, w.cells[l].eventType)])
    ensures Wf(r)
    ensures forall o', t :: o' in r.maps ==> Lists.Count(BucketOf(r, o', t), l) == (if o' == o && t == w.cells[l].eventType then 1 else 0)
    ensures var t := w.cells[l].eventType; |BucketOf(r, o, t)| > 0 && BucketOf(r, o, t)[|BucketOf(r, o, t)| - 1] == l
  {
    ActivateKeepsBuckets(w, l, o, r);
    ActivateKeepsParents(w, l, o, r);
    ActivateCounts(w, l, o, r);
  }

  lemma ActivateKeepsBuckets(w: World, l: ListenerId, o: ObserverId, r: World)
    requires Wf(w) && l in w.cells && o in w.maps && w.cells[l].parent == None
    requires forall o', t :: o' in w.maps ==> l !in BucketOf(w, o', t)
    requires r == w.(cells := w.cells[l := w.cells[l].(parent := Some(o))],
                     maps := w.maps[o := ListenerMap.Add(w.maps[o], l, w.cells[l].eventType)])
    ensures BucketsSound(r)
  {
    var t := w.cells[l].eventType;
    assert r.maps[o][t] == BucketOf(w, o, t) + [l];
    forall o', t', k | o' in r.maps && t' in r.maps[o'] && k in r.maps[o'][t']
      ensures k in r.cells && r.cells[k].eventType == t' && r.cells[k].parent == Some(o')
    {
      if o' == o && t' == t {
        if k != l {
          assert k in BucketOf(w, o, t);
        }
      } else {
        assert r.maps[o'][t'] == w.maps[o'][t'];
        assert k in BucketOf(w, o', t');
      }
    }
  }

  lemma ActivateKeepsParents(w: World, l: ListenerId, o: ObserverId, r: World)
    requires Wf(w) && l in w.cells && o in w.maps && w.cells[l].parent == None
    requires forall o', t :: o' in w.maps ==> l !in BucketOf(w, o', t)
    requires r == w.(cells := w.cells[l := w.cells[l].(parent := Some(o))],
                     maps := w.maps[o := ListenerMap.Add(w.maps[o], l, w.cells[l].eventType)])
    ensures ParentsSound(r)
  {
    var t := w.cells[l].eventType;
    assert r.maps[o][t] == BucketOf(w, o, t) + [l];
    assert multiset(BucketOf(w, o, t) + [l]) == multiset(BucketOf(w, o, t)) + multiset{l};
    forall k | k in r.cells && r.cells[k].parent.Some?
      ensures r.cells[k].parent.value in r.maps
      ensures Lists.Count(ListenerMap.Bucket(r.maps[r.cells[k].parent.value], r.cells[k].eventType), k) == 1
    {
      var p := r.cells[k].parent.value;
      var tk := r.cells[k].eventType;
      if !(p == o && tk == t) {
        assert ListenerMap.Bucket(r.maps[p], tk) == ListenerMap.Bucket(w.maps[p], tk);
      }
    }
  }

  lemma ActivateCounts(w: World, l: ListenerId, o: ObserverId, r: World)
    requires Wf(w) && l in w.cells && o in w.maps && w.cells[l].parent == None
    requires forall o', t :: o' in w.maps ==> l !in BucketOf(w, o', t)
    requires r == w.(cells := w.cells[l := w.cells[l].(parent := Some(o))],
                     maps := w.maps[o := ListenerMap.Add(w.maps[o], l, w.cells[l].eventType)])
    ensures forall o', t :: o' in r.maps ==> Lists.Count(BucketOf(r, o', t), l) == (if o' == o && t == w.cells[l].eventType then 1 else 0)
    ensures var t := w.cells[l].eventType; |BucketOf(r, o, t)| > 0 && BucketOf(r, o, t)[|BucketOf(r, o, t)| - 1] == l
  {
    var t := w.cells[l].eventType;
    assert r.maps[o][t] == BucketOf(w, o, t) + [l];
    assert l !in BucketOf(w, o, t);
    forall o', t' | o' in r.maps
      ensures Lists.Count(BucketOf(r, o', t'), l) == (if o' == o && t' == t then 1 else 0)
    {
      if o' == o && t' == t {
        assert multiset(BucketOf(w, o, t) + [l]) == multiset(BucketOf(w, o, t)) + multiset{l};
      } else {
        assert BucketOf(r, o', t') == BucketOf(w, o', t');
      }
    }
  }

  /** `listen::<T>`: a new listener for kind `eventType`, activated into observer `o`. */
  function Listen(w: World, o: ObserverId, eventType: Tag, fun: Behaviour): (r: (World, ListenerId))
    requires Wf(w) && o in w.maps
    ensures Wf(r.0)
    ensures r.1 !in w.cells && r.1 in r.0.cells
    ensures r.0.cells[r.1] == ListenerCell(eventType, Some(o), fun)
    ensures BucketOf(r.0, o, eventType) == BucketOf(w, o, eventType) + [r.1]
    ensures forall o', t :: o' in w.maps && !(o' == o && t == eventType) ==> o' in r.0.maps && BucketOf(r.0, o', t) == BucketOf(w, o', t)
    ensures r.0.maps.Keys == w.maps.Keys
    ensures forall k :: k in w.cells ==> k in r.0.cells && r.0.cells[k] == w.cells[k]
  {
    var (w1, l) := NewListener(w, eventType, fun);
    ListenShape(w1, l, o);
    (Activate(w1, l, o), l)
  }

  /** `listen` appends the new listener to the one bucket of its kind and leaves the others of `o` alone. */
  lemma ListenBuckets(w: World, o: ObserverId, eventType: Tag, fun: Behaviour)
    requires Wf(w) && o in w.maps
    ensures var r := Listen(w, o, eventType, fun);
      o in r.0.maps &&
      forall t :: BucketOf(r.0, o, t) == BucketOf(w, o, t) + (if t == eventType then [r.1] else [])
  {
    var r := Listen(w, o, eventType, fun);
    forall t
      ensures BucketOf(r.0, o, t) == BucketOf(w, o, t) + (if t == eventType then [r.1] else [])
    {
      if t != eventType {
        assert BucketOf(w, o, t) + [] == BucketOf(w, o, t);
      }
    }
  }

  /**
   * Activating is deactivating and then appending to one bucket of the new
   * parent: every other entry of every registry keeps its place.
   */
  lemma ActivateShape(w: World, l: ListenerId, o: ObserverId)
    requires Wf(w) && l in w.cells && o in w.maps
    ensures var d := Deactivate(w, l);
      o in d.maps && Activate(w, l, o).maps == d.maps[o := ListenerMap.Add(d.maps[o], l, w.cells[l].eventType)]
  {
  }

  /** Activating a listener that is not yet active only appends it to one bucket. */
  lemma ListenShape(w: World, l: ListenerId, o: ObserverId)
    requires Wf(w) && l in w.cells && o in w.maps && w.cells[l].parent == None
    ensures Activate(w, l, o).maps == w.maps[o := ListenerMap.Add(w.maps[o], l, w.cells[l].eventType)]
  {
  }

  /** `remove_listener`: exactly `listener.deactivate()`; the observer is not consulted. */
  function RemoveListener(w: World, o: ObserverId, l: ListenerId): (r: World)
    requires Wf(w) && l in w.cells
    ensures Wf(r) && l in r.cells && r.cells[l].parent == None
    ensures forall o', t :: o' in r.maps ==> l !in BucketOf(r, o', t)
    ensures r == Deactivate(w, l)
  {
    Deactivate(w, l)
  }

  /**
   * `send`: the registry's drain loop seeded with `e`, over the observer's
   * registry as it stands (it is borrowed for the whole drain).
   */
  function Send(w: World, o: ObserverId, e: Event, trace: seq<string>, fuel: nat): (r: Option<ListenerMap.Session>)
    requires Wf(w) && o in w.maps
    ensures r.Some? ==> r.value.pool.events == [] && |r.value.dispatched| > 0 && r.value.dispatched[0] == e
    ensures r.Some? ==> forall i :: 0 <= i < |r.value.log| ==>
      r.value.log[i].listener in BucketOf(w, o, r.value.log[i].event.tag)
    ensures r.Some? ==> r.value.dispatched == [e] + ListenerMap.Emitted(r.value.log)
    ensures r.Some? ==> ListenerMap.Targets(r.value.log) == ListenerMap.Schedule(w.maps[o], r.value.dispatched)
    ensures r.Some? ==> r.value.trace == trace + ListenerMap.Output(r.value.log)
    ensures r.Some? ==> ListenerMap.Faithful(Funs(w), trace, r.value.log)
  {
    assert ListenerMap.Live(w.maps[o], Funs(w));
    ListenerMap.CallIsolated(w.maps[o], Funs(w), e, trace, fuel);
    ListenerMap.Call(w.maps[o], Funs(w), e, trace, fuel)
  }

  /** `send` is the registry's `call` on the observer's own registry, with the listener bodies of the world. */
  lemma SendIsCall(w: World, o: ObserverId, e: Event, trace: seq<string>, fuel: nat)
    requires Wf(w) && o in w.maps
    ensures ListenerMap.Live(w.maps[o], Funs(w))
    ensures Send(w, o, e, trace, fuel) == ListenerMap.Call(w.maps[o], Funs(w), e, trace, fuel)
  {
    RegistryLive(w, o);
  }

  /** Deactivating twice is deactivating once. */
  lemma DeactivateIdempotent(w: World, l: ListenerId)
    requires Wf(w) && l in w.cells
    ensures Deactivate(Deactivate(w, l), l) == Deactivate(w, l)
  {
  }

  /**
   * Every listener a `send` runs is active in that observer for the kind of
   * the event it is given, so the erased event always has the type the
   * listener body was written for.
   */
  lemma SendIsTypeSafe(w: World, o: ObserverId, e: Event, trace: seq<string>, fuel: nat)
    requires Wf(w) && o in w.maps
    ensures Send(w, o, e, trace, fuel).Some? ==>
      var log := Send(w, o, e, trace, fuel).value.log;
      forall i :: 0 <= i < |log| ==>
        log[i].listener in w.cells && w.cells[log[i].listener].eventType == log[i].event.tag &&
        w.cells[log[i].listener].parent == Some(o)
  {
    var r := Send(w, o, e, trace, fuel);
    if r.Some? {
      forall i | 0 <= i < |r.value.log|
        ensures r.value.log[i].listener in w.cells
        ensures w.cells[r.value.log[i].listener].eventType == r.value.log[i].event.tag
        ensures w.cells[r.value.log[i].listener].parent == Some(o)
      {
        InBucketIffActive(w, o, r.value.log[i].event.tag, r.value.log[i].listener);
      }
    }
  }

  /** A deactivated listener is never run by any later `send`, on any observer. */
  lemma DeactivatedNeverRuns(w: World, l: ListenerId, o: ObserverId, e: Event, trace: seq<string>, fuel: nat)
    requires Wf(w) && l in w.cells && o in w.maps
    ensures var w' := Deactivate(w, l);
      Send(w', o, e, trace, fuel).Some? ==>
      forall i :: 0 <= i < |Send(w', o, e, trace, fuel).value.log| ==> Send(w', o, e, trace, fuel).value.log[i].listener != l
  {
  }

  /** Two `Listener::new` calls never produce equal handles (`Rc::ptr_eq` is false). */
  lemma SeparateListenersDiffer(w: World, t1: Tag, f1: Behaviour, t2: Tag, f2: Behaviour)
    requires Wf(w)
    ensures var (w1, a) := NewListener(w, t1, f1); NewListener(w1, t2, f2).1 != a
  {
  }
}

=== FILE: observer_scenarios.dfy ===
/**
 * The demo of the nested event bus and its scenario tests, as concrete
 * listeners over the model. Captured mutable state (a `String`, a `Vec`, a
 * counter) is the output trace: a listener appends to it and reads its length.
 */
module ObserverScenarios {
  import opened Wrappers
  import opened Events
  import Lists
  import EventPool
  import ListenerMap
  import Observer
  import Relays

  /** `RedEvent`, `FirstEvent`, `SecondEvent`, `ThirdEvent` of the demo. */
  const Red: Tag := 0
  const First: Tag := 1
  const Second: Tag := 2
  const Third: Tag := 3

  function RedFun(e: Event, trace: seq<string>): Reaction
  {
    Reaction([], ["red event"])
  }

  /** Sends `SecondEvent { message: format!("first({}), ", val) }`. */
  function FirstFun(e: Event, trace: seq<string>): Reaction
  {
    match e.payload
    case Num(n) => Reaction([Event(Second, Text("first(" + NatToString(n) + "), "))], [])
    case _ => Quiet
  }

  /** Sends `ThirdEvent { string_val: format!("{} second, ", message) }`. */
  function SecondFun(e: Event, trace: seq<string>): Reaction
  {
    match e.payload
    case Text(m) => Reaction([Event(Third, Text(m + " second, "))], [])
    case _ => Quiet
  }

  /** Appends `format!("{} third, ", string_val)` to the text. */
  function ThirdFun(e: Event, trace: seq<string>): Reaction
  {
    match e.payload
    case Text(m) => Reaction([], [m + " third, "])
    case _ => Quiet
  }

  /**
   * What `create_observer_and_out_text` leaves behind: on observer `o`, no
   * listener for `RedEvent` and one each, with their bodies, for the other
   * three kinds (`ids` lists the red, first, second and third handles).
   */
  ghost predicate DemoShape(w: Observer.World, o: Observer.ObserverId, ids: seq<ListenerId>)
  {
    && Observer.Wf(w) && o in w.maps && |ids| == 4
    && Observer.BucketOf(w, o, Red) == []
    && Observer.BucketOf(w, o, First) == [ids[1]]
    && Observer.BucketOf(w, o, Second) == [ids[2]]
    && Observer.BucketOf(w, o, Third) == [ids[3]]
    && ids[1] in w.cells && w.cells[ids[1]].fun == FirstFun
    && ids[2] in w.cells && w.cells[ids[2]].fun == SecondFun
    && ids[3] in w.cells && w.cells[ids[3]].fun == ThirdFun
  }

  /** The bodies `create_listeners` registers, in order; the k-th listens to tag k. */
  function DemoFuns(): (r: seq<Behaviour>)
    ensures |r| == 4
  {
    [RedFun, FirstFun, SecondFun, ThirdFun]
  }

  /**
   * Part way through `create_listeners` on observer `o`: the first `|ids|`
   * listeners are active, each alone in its kind's bucket.
   */
  ghost predicate Registered(w: Observer.World, o: Observer.ObserverId, ids: seq<ListenerId>)
  {
    && Observer.Wf(w) && o in w.maps && |ids| <= 4
    && (forall k: nat :: k < 4 ==> Observer.BucketOf(w, o, k) == if k < |ids| then [ids[k]] else [])
    && (forall k :: 0 <= k < |ids| ==> ids[k] in w.cells && w.cells[ids[k]] == Observer.ListenerCell(k, Some(o), DemoFuns()[k]))
  }

  /** One `observer.listen::<..>(..)` of `create_listeners`. */
  function ListenNext(w: Observer.World, o: Observer.ObserverId, ids: seq<ListenerId>): (r: (Observer.World, seq<ListenerId>))
    requires Registered(w, o, ids) && |ids| < 4
    ensures Registered(r.0, o, r.1) && |r.1| == |ids| + 1
  {
    var (w', l) := Observer.Listen(w, o, |ids|, DemoFuns()[|ids|]);
    (w', ids + [l])
  }

  /** `create_listeners` on a new observer: all four listeners active. */
  function DemoListeners(w: Observer.World): (r: (Observer.World, Observer.ObserverId, seq<ListenerId>))
    requires Observer.Wf(w)
    ensures Registered(r.0, r.1, r.2) && |r.2| == 4
  {
    var (w0, o) := Observer.NewObserver(w);
    var (w1, ids1) := ListenNext(w0, o, []);
    var (w2, ids2) := ListenNext(w1, o, ids1);
    var (w3, ids3) := ListenNext(w2, o, ids2);
    var (w4, ids) := ListenNext(w3, o, ids3);
    (w4, o, ids)
  }

  /**
   * `create_observer_and_out_text`: the four listeners are registered on a
   * new observer and the red one is deactivated. The other three handles are
   * dropped by the caller, which does not unregister them.
   */
  function Demo(w: Observer.World): (r: (Observer.World, Observer.ObserverId, seq<ListenerId>))
    requires Observer.Wf(w)
    ensures DemoShape(r.0, r.1, r.2)
  {
    var (w4, o, ids) := DemoListeners(w);
    DeactivateRedBuckets(w4, o, ids);
    DeactivateRedCells(w4, o, ids);
    (Observer.Deactivate(w4, ids[0]), o, ids)
  }

  lemma DeactivateRedBuckets(w: Observer.World, o: Observer.ObserverId, ids: seq<ListenerId>)
    requires Registered(w, o, ids) && |ids| == 4
    ensures var r := Observer.Deactivate(w, ids[0]);
      && o in r.maps
      && Observer.BucketOf(r, o, Red) == []
      && Observer.BucketOf(r, o, First) == [ids[1]]
      && Observer.BucketOf(r, o, Second) == [ids[2]]
      && Observer.BucketOf(r, o, Third) == [ids[3]]
  {
    assert Observer.BucketOf(w, o, Red) == [ids[0]];
    assert Lists.RemoveFirst([ids[0]], ids[0]) == [];
    assert Observer.BucketOf(w, o, First) == [ids[1]];
    assert Observer.BucketOf(w, o, Second) == [ids[2]];
    assert Observer.BucketOf(w, o, Third) == [ids[3]];
  }

  lemma DeactivateRedCells(w: Observer.World, o: Observer.ObserverId, ids: seq<ListenerId>)
    requires Registered(w, o, ids) && |ids| == 4
    ensures var r := Observer.Deactivate(w, ids[0]);
      && ids[1] in r.cells && r.cells[ids[1]].fun == FirstFun
      && ids[2] in r.cells && r.cells[ids[2]].fun == SecondFun
      && ids[3] in r.cells && r.cells[ids[3]].fun == ThirdFun
  {
    assert w.cells[ids[1]].eventType == 1 && w.cells[ids[2]].eventType == 2 && w.cells[ids[3]].eventType == 3;
  }

  /**
   * `send(RedEvent {})` on the demo observer: the red listener was deactivated
   * before, so the event is popped and dropped, nothing runs, nothing is written.
   */
  lemma DemoRedRunsNothing(w: Observer.World, o: Observer.ObserverId, ids: seq<ListenerId>, trace: seq<string>, fuel: nat)
    requires DemoShape(w, o, ids) && fuel >= 1
    ensures Observer.Send(w, o, Event(Red, NoData), trace, fuel) ==
      Some(ListenerMap.Session(EventPool.Pool([]), trace, [Event(Red, NoData)], []))
  {
    assert ListenerMap.Live(w.maps[o], Observer.Funs(w));
    ListenerMap.NoListenersIsNoOp(w.maps[o], Observer.Funs(w), Event(Red, NoData), trace, fuel);
  }

  /** The events of the demo chain and the text the third listener writes. */
  const E1: Event := Event(First, Num(555))
  const E2: Event := Event(Second, Text("first(555), "))
  const E3: Event := Event(Third, Text("first(555),  second, "))
  const DemoText: string := "first(555),  second,  third, "

  /** What each demo listener does with the event the previous one sent. */
  lemma DemoReactions(trace: seq<string>)
    ensures FirstFun(E1, trace) == Reaction([E2], [])
    ensures SecondFun(E2, trace) == Reaction([E3], [])
    ensures ThirdFun(E3, trace) == Reaction([], [DemoText])
  {
    assert NatToString(5) == "5" && NatToString(55) == "55" && NatToString(555) == "555";
    assert "first(" + NatToString(555) + "), " == "first(555), ";
    assert FirstFun(E1, trace).emitted == [Event(Second, Text("first(" + NatToString(555) + "), "))];
    assert "first(555), " + " second, " == "first(555),  second, ";
    assert "first(555),  second, " + " third, " == DemoText;
  }

  /**
   * `send(FirstEvent { val: 555 })` on the demo observer: the first, second
   * and third listeners run once each, in that order, each on the event the
   * previous one sent; only the third writes, and it writes the text the
   * three `format!` calls build.
   */
  lemma DemoFirstEvent(w: Observer.World, o: Observer.ObserverId, ids: seq<ListenerId>, trace: seq<string>, fuel: nat)
    requires DemoShape(w, o, ids) && fuel >= 3
    ensures var r := Observer.Send(w, o, E1, trace, fuel);
      && r.Some?
      && r.value.trace == trace + [DemoText]
      && ListenerMap.Targets(r.value.log) ==
           [ListenerMap.Target(ids[1], E1), ListenerMap.Target(ids[2], E2), ListenerMap.Target(ids[3], E3)]
  {
    var reg, funs := w.maps[o], Observer.Funs(w);
    Observer.RegistryLive(w, o);
    assert funs[ids[1]] == FirstFun && funs[ids[2]] == SecondFun && funs[ids[3]] == ThirdFun;
    DemoRelay(reg, funs, ids, trace);
    Relays.RelayCall(reg, funs, trace, DemoLog(ids), fuel);
    DemoLogTargets(ids);
    DemoLogOutput(ids);
  }

  /** The invocations of the demo chain, in the order they happen. */
  function DemoLog(ids: seq<ListenerId>): (r: seq<ListenerMap.Invocation>)
    requires |ids| == 4
    ensures |r| == 3
  {
    [ListenerMap.Invocation(ids[1], E1, Reaction([E2], [])),
     ListenerMap.Invocation(ids[2], E2, Reaction([E3], [])),
     ListenerMap.Invocation(ids[3], E3, Reaction([], [DemoText]))]
  }

  /** The demo's buckets and bodies make its chain a relay: each listener sends the event of the next. */
  lemma DemoRelay(reg: ListenerMap.Registry, funs: ListenerMap.Behaviours, ids: seq<ListenerId>, trace: seq<string>)
    requires ListenerMap.Live(reg, funs) && |ids| == 4
    requires ListenerMap.Bucket(reg, First) == [ids[1]] && ListenerMap.Bucket(reg, Second) == [ids[2]]
    requires ListenerMap.Bucket(reg, Third) == [ids[3]]
    requires ids[1] in funs && ids[2] in funs && ids[3] in funs
    requires funs[ids[1]] == FirstFun && funs[ids[2]] == SecondFun && funs[ids[3]] == ThirdFun
    ensures Relays.Relay(reg, funs, trace, DemoLog(ids))
  {
    DemoReactions(trace);
    var log := DemoLog(ids);
    forall k | 0 <= k < 3
      ensures Relays.Link(reg, funs, trace, log, k)
    {
      var one := [log[1]];
      assert one[1..] == [] && one[0] == log[1];
      assert ListenerMap.Output(one) == [];
      var p := log[..k];
      if k > 0 {
        assert p[0] == log[0];
        assert p[1..] == if k == 2 then one else [];
      }
      assert ListenerMap.Output(p) == [];
      assert trace + [] == trace;
    }
  }

  lemma DemoLogTargets(ids: seq<ListenerId>)
    requires |ids| == 4
    ensures ListenerMap.Targets(DemoLog(ids)) ==
      [ListenerMap.Target(ids[1], E1), ListenerMap.Target(ids[2], E2), ListenerMap.Target(ids[3], E3)]
  {
    var t := ListenerMap.Targets(DemoLog(ids));
    assert |t| == 3 && t[0] == ListenerMap.Target(ids[1], E1) && t[1] == ListenerMap.Target(ids[2], E2) && t[2] == ListenerMap.Target(ids[3], E3);
  }

  lemma DemoLogOutput(ids: seq<ListenerId>)
    requires |ids| == 4
    ensures ListenerMap.Output(DemoLog(ids)) == [DemoText]
  {
    var log := DemoLog(ids);
    assert log[1..][1..] == log[2..] && log[2..][1..] == [];
    assert log[2..][0] == log[2] && log[1..][0] == log[1];
    assert ListenerMap.Output(log[2..]) == [DemoText];
  }

  /**
   * `main` on a world `create_observer_and_out_text` built: send `RedEvent`,
   * then `FirstEvent { val: 555 }`, and answer the text the listeners wrote
   * (`None`: out of fuel).
   */
  function DemoRun(w: Observer.World, o: Observer.ObserverId, fuel: nat): (r: Option<string>)
    requires Observer.Wf(w) && o in w.maps
    ensures var red := Observer.Send(w, o, Event(Red, NoData), [], fuel);
      r.Some? <==> red.Some? && Observer.Send(w, o, E1, red.value.trace, fuel).Some?
  {
    match Observer.Send(w, o, Event(Red, NoData), [], fuel)
    case None => None
    case Some(afterRed) =>
      match Observer.Send(w, o, E1, afterRed.trace, fuel)
      case None => None
      case Some(afterFirst) => Some(Concat(afterFirst.trace))
  }

  /**
   * The text `main` produces: the red listener wrote nothing, and the third
   * listener wrote the text built by the three `format!` calls, two spaces
   * before `second` and before `third`.
   */
  lemma DemoRunText(w: Observer.World, o: Observer.ObserverId, ids: seq<ListenerId>, fuel: nat)
    requires DemoShape(w, o, ids) && fuel >= 3
    ensures DemoRun(w, o, fuel) == Some("first(555),  second,  third, ")
  {
    DemoRedRunsNothing(w, o, ids, [], fuel);
    DemoFirstEvent(w, o, ids, [], fuel);
    assert [DemoText][..0] == [];
    assert Concat([DemoText]) == DemoText;
  }

  /** The literal `main` asserts against is not the text the listeners build. */
  lemma DemoAssertionAsWrittenFails(w: Observer.World, o: Observer.ObserverId, ids: seq<ListenerId>, fuel: nat)
    requires DemoShape(w, o, ids) && fuel >= 3
    ensures DemoRun(w, o, fuel) != Some("first(555) second third")
  {
    DemoRunText(w, o, ids, fuel);
    assert |"first(555),  second,  third, "| != |"first(555) second third"|;
  }

  /** The demo, started from a world with nothing allocated. */
  lemma DemoFromEmpty(fuel: nat)
    requires fuel >= 3
    ensures var (w, o, _) := Demo(Observer.Empty()); DemoRun(w, o, fuel) == Some("first(555),  second,  third, ")
  {
    var (w, o, ids) := Demo(Observer.Empty());
    DemoRunText(w, o, ids, fuel);
  }
}

=== FILE: observer_tests.dfy ===
/**
 * The scenario tests of the nested event bus (kept in a block comment beside
 * the demo), as lemmas over the model. Each starts from any well-formed world.
 */
module ObserverTests {
  import opened Wrappers
  import opened Events
  import Lists
  import EventPool
  import ListenerMap
  import Observer
  import opened Relays

  /** The listeners among `ids` that were registered for kind `t`, in registration order. */
  function Picks(ids: seq<ListenerId>, tags: seq<Tag>, t: Tag): (r: seq<ListenerId>)
    requires |ids| == |tags|
    ensures forall l :: l in r ==> l in ids
    decreases |ids|
  {
    if |ids| == 0 then []
    else (if tags[0] == t then [ids[0]] else []) + Picks(ids[1..], tags[1..], t)
  }

  /** A kind registered once, at position `k`, has that listener alone in its bucket. */
  lemma {:induction false} PicksSole(ids: seq<ListenerId>, tags: seq<Tag>, t: Tag, k: nat)
    requires |ids| == |tags| && k < |tags| && tags[k] == t
    requires forall j :: 0 <= j < |tags| && j != k ==> tags[j] != t
    ensures Picks(ids, tags, t) == [ids[k]]
    decreases |ids|
  {
    if k == 0 {
      PicksNone(ids[1..], tags[1..], t);
    } else {
      PicksSole(ids[1..], tags[1..], t, k - 1);
    }
  }

  /** With every kind registered once, each bucket holds its one listener. */
  lemma PicksDistinct(ids: seq<ListenerId>, tags: seq<Tag>)
    requires |ids| == |tags|
    requires forall i, j :: 0 <= i < j < |tags| ==> tags[i] != tags[j]
    ensures forall k :: 0 <= k < |tags| ==> Picks(ids, tags, tags[k]) == [ids[k]]
  {
    forall k | 0 <= k < |tags|
      ensures Picks(ids, tags, tags[k]) == [ids[k]]
    {
      PicksSole(ids, tags, tags[k], k);
    }
  }

  /** A kind never registered has an empty bucket. */
  lemma {:induction false} PicksNone(ids: seq<ListenerId>, tags: seq<Tag>, t: Tag)
    requires |ids| == |tags|
    requires forall j :: 0 <= j < |tags| ==> tags[j] != t
    ensures Picks(ids, tags, t) == []
    decreases |ids|
  {
    if |ids| > 0 {
      PicksNone(ids[1..], tags[1..], t);
    }
  }

  /** When every registration is for kind `t`, its bucket holds them all, in order. */
  lemma {:induction false} PicksAll(ids: seq<ListenerId>, tags: seq<Tag>, t: Tag)
    requires |ids| == |tags|
    requires forall j :: 0 <= j < |tags| ==> tags[j] == t
    ensures Picks(ids, tags, t) == ids
    decreases |ids|
  {
    if |ids| > 0 {
      PicksAll(ids[1..], tags[1..], t);
      assert ids == [ids[0]] + ids[1..];
    }
  }

  /**
   * A run of `observer.listen` calls on observer `o`, one per entry of `tags`
   * and `funs`; the new listeners come back in registration order.
   */
  function ListenAll(w: Observer.World, o: Observer.ObserverId, tags: seq<Tag>, funs: seq<Behaviour>): (r: (Observer.World, seq<ListenerId>))
    requires Observer.Wf(w) && o in w.maps && |tags| == |funs|
    ensures Observer.Wf(r.0) && o in r.0.maps && |r.1| == |tags|
    decreases |tags|
  {
    if |tags| == 0 then (w, [])
    else
      var (w1, l) := Observer.Listen(w, o, tags[0], funs[0]);
      var (w2, ls) := ListenAll(w1, o, tags[1..], funs[1..]);
      (w2, [l] + ls)
  }

  /** Each bucket of `o` ends with the new listeners of its kind, in registration order. */
  lemma {:induction false} ListenAllBuckets(w: Observer.World, o: Observer.ObserverId, tags: seq<Tag>, funs: seq<Behaviour>)
    requires Observer.Wf(w) && o in w.maps && |tags| == |funs|
    ensures var r := ListenAll(w, o, tags, funs);
      forall t :: Observer.BucketOf(r.0, o, t) == Observer.BucketOf(w, o, t) + Picks(r.1, tags, t)
    decreases |tags|
  {
    if |tags| > 0 {
      var (w1, l) := Observer.Listen(w, o, tags[0], funs[0]);
      var (w2, ls) := ListenAll(w1, o, tags[1..], funs[1..]);
      Observer.ListenBuckets(w, o, tags[0], funs[0]);
      ListenAllBuckets(w1, o, tags[1..], funs[1..]);
      ListenAllStep(w, w1, w2, o, l, ls, tags, funs);
    }
  }

  /** Every new listener is active on `o` with its kind and behaviour; older cells are untouched. */
  lemma {:induction false} ListenAllRegisters(w: Observer.World, o: Observer.ObserverId, tags: seq<Tag>, funs: seq<Behaviour>)
    requires Observer.Wf(w) && o in w.maps && |tags| == |funs|
    ensures var r := ListenAll(w, o, tags, funs);
      && (forall k :: 0 <= k < |tags| ==> r.1[k] in r.0.cells && r.0.cells[r.1[k]] == Observer.ListenerCell(tags[k], Some(o), funs[k]))
      && (forall l :: l in w.cells ==> l in r.0.cells && r.0.cells[l] == w.cells[l])
    decreases |tags|
  {
    if |tags| > 0 {
      var (w1, l) := Observer.Listen(w, o, tags[0], funs[0]);
      var (w2, ls) := ListenAll(w1, o, tags[1..], funs[1..]);
      ListenAllRegisters(w1, o, tags[1..], funs[1..]);
      ListenAllCells(w1, w2, o, l, ls, tags, funs);
    }
  }

  lemma ListenAllStep(w: Observer.World, w1: Observer.World, w2: Observer.World, o: Observer.ObserverId,
                      l: ListenerId, ls: seq<ListenerId>, tags: seq<Tag>, funs: seq<Behaviour>)
    requires o in w.maps && o in w1.maps && o in w2.maps && |tags| == |funs| == |ls| + 1
    requires forall t :: Observer.BucketOf(w1, o, t) == Observer.BucketOf(w, o, t) + (if t == tags[0] then [l] else [])
    requires forall t :: Observer.BucketOf(w2, o, t) == Observer.BucketOf(w1, o, t) + Picks(ls, tags[1..], t)
    ensures forall t :: Observer.BucketOf(w2, o, t) == Observer.BucketOf(w, o, t) + Picks([l] + ls, tags, t)
  {
    forall t
      ensures Observer.BucketOf(w2, o, t) == Observer.BucketOf(w, o, t) + Picks([l] + ls, tags, t)
    {
      assert ([l] + ls)[1..] == ls;
      Lists.Assoc(Observer.BucketOf(w, o, t), if t == tags[0] then [l] else [], Picks(ls, tags[1..], t));
    }
  }

  lemma ListenAllCells(w1: Observer.World, w2: Observer.World, o: Observer.ObserverId,
                       l: ListenerId, ls: seq<ListenerId>, tags: seq<Tag>, funs: seq<Behaviour>)
    requires |tags| == |funs| == |ls| + 1
    requires l in w1.cells && w1.cells[l] == Observer.ListenerCell(tags[0], Some(o), funs[0])
    requires forall k :: 0 <= k < |tags| - 1 ==> ls[k] in w2.cells && w2.cells[ls[k]] == Observer.ListenerCell(tags[1..][k], Some(o), funs[1..][k])
    requires forall k :: k in w1.cells ==> k in w2.cells && w2.cells[k] == w1.cells[k]
    ensures forall k :: 0 <= k < |tags| ==> ([l] + ls)[k] in w2.cells && w2.cells[([l] + ls)[k]] == Observer.ListenerCell(tags[k], Some(o), funs[k])
  {
    forall k | 0 <= k < |tags|
      ensures ([l] + ls)[k] in w2.cells && w2.cells[([l] + ls)[k]] == Observer.ListenerCell(tags[k], Some(o), funs[k])
    {
      if k > 0 {
        assert ([l] + ls)[k] == ls[k - 1];
        assert tags[1..][k - 1] == tags[k] && funs[1..][k - 1] == funs[k];
      }
    }
  }

  /** A fresh observer with one listener per entry of `tags` and `funs`, registered in that order. */
  function Setup(w: Observer.World, tags: seq<Tag>, funs: seq<Behaviour>): (r: (Observer.World, Observer.ObserverId, seq<ListenerId>))
    requires Observer.Wf(w) && |tags| == |funs|
    ensures Observer.Wf(r.0) && r.1 in r.0.maps && |r.2| == |tags|
  {
    var (w1, o) := Observer.NewObserver(w);
    var (w2, ids) := ListenAll(w1, o, tags, funs);
    (w2, o, ids)
  }

  /**
   * In the world `Setup` builds, the bucket of kind `t` holds exactly the new
   * listeners of that kind, in registration order, and each new listener runs
   * the body it was given.
   */
  lemma SetupShape(w: Observer.World, tags: seq<Tag>, funs: seq<Behaviour>)
    requires Observer.Wf(w) && |tags| == |funs|
    ensures var (w2, o, ids) := Setup(w, tags, funs);
      && (forall t :: Observer.BucketOf(w2, o, t) == Picks(ids, tags, t))
      && (forall k :: 0 <= k < |ids| ==> ids[k] in Observer.Funs(w2) && Observer.Funs(w2)[ids[k]] == funs[k])
  {
    SetupBuckets(w, tags, funs);
    SetupFuns(w, tags, funs);
  }

  lemma SetupBuckets(w: Observer.World, tags: seq<Tag>, funs: seq<Behaviour>)
    requires Observer.Wf(w) && |tags| == |funs|
    ensures var (w2, o, ids) := Setup(w, tags, funs);
      forall t :: Observer.BucketOf(w2, o, t) == Picks(ids, tags, t)
  {
    var (w1, o) := Observer.NewObserver(w);
    ListenAllBuckets(w1, o, tags, funs);
    var (w2, ids) := ListenAll(w1, o, tags, funs);
    forall t
      ensures Observer.BucketOf(w2, o, t) == Picks(ids, tags, t)
    {
      assert Observer.BucketOf(w1, o, t) == [];
    }
  }

  lemma SetupFuns(w: Observer.World, tags: seq<Tag>, funs: seq<Behaviour>)
    requires Observer.Wf(w) && |tags| == |funs|
    ensures var (w2, o, ids) := Setup(w, tags, funs);
      forall k :: 0 <= k < |ids| ==> ids[k] in Observer.Funs(w2) && Observer.Funs(w2)[ids[k]] == funs[k]
  {
    var (w1, o) := Observer.NewObserver(w);
    ListenAllRegisters(w1, o, tags, funs);
  }

  /** `send` on an observer whose registrations make `log` a relay: the whole chain runs, in order. */
  lemma SendRelay(w: Observer.World, o: Observer.ObserverId, log: seq<ListenerMap.Invocation>, fuel: nat)
    requires Observer.Wf(w) && o in w.maps && |log| > 0 && fuel >= |log|
    requires Relay(w.maps[o], Observer.Funs(w), [], log)
    ensures Observer.Send(w, o, log[0].event, [], fuel) ==
      Some(ListenerMap.Session(EventPool.Pool([]), ListenerMap.Output(log), EventsOf(log), log))
  {
    var call := ListenerMap.Call(w.maps[o], Observer.Funs(w), log[0].event, [], fuel);
    assert Observer.Send(w, o, log[0].event, [], fuel) == call by {
      Observer.SendIsCall(w, o, log[0].event, [], fuel);
    }
    assert call == Some(ListenerMap.Session(EventPool.Pool([]), ListenerMap.Output(log), EventsOf(log), log)) by {
      Observer.RegistryLive(w, o);
      RelayCall(w.maps[o], Observer.Funs(w), [], log, fuel);
      assert [] + ListenerMap.Output(log) == ListenerMap.Output(log);
    }
  }

  /** Event kinds of the tests: `String`, `bool`, `u32`, `SomeEvent`, `Foo` and `Bar`. */
  const StrTag: Tag := 10
  const BoolTag: Tag := 11
  const U32Tag: Tag := 12
  const SomeEventTag: Tag := 13
  const FooTag: Tag := 20
  const BarTag: Tag := 21

  // send_from_other_event

  /** Appends the text and sends `true`. */
  function StrFun(e: Event, trace: seq<string>): Reaction
  {
    match e.payload
    case Text(m) => Reaction([Event(BoolTag, Flag(true))], [m])
    case _ => Quiet
  }

  /** Appends the flag and `", "`, and sends `100u32`. */
  function BoolFun(e: Event, trace: seq<string>): Reaction
  {
    match e.payload
    case Flag(b) => Reaction([Event(U32Tag, Num(100))], [BoolToString(b), ", "])
    case _ => Quiet
  }

  /** Appends the number. */
  function U32Fun(e: Event, trace: seq<string>): Reaction
  {
    match e.payload
    case Num(n) => Reaction([], [NatToString(n)])
    case _ => Quiet
  }

  /** The three invocations of the test, in the order they happen. */
  function OtherEventLog(ids: seq<ListenerId>): (r: seq<ListenerMap.Invocation>)
    requires |ids| == 3
    ensures |r| == 3
  {
    [ListenerMap.Invocation(ids[0], Event(StrTag, Text("Hello, ")), Reaction([Event(BoolTag, Flag(true))], ["Hello, "])),
     ListenerMap.Invocation(ids[1], Event(BoolTag, Flag(true)), Reaction([Event(U32Tag, Num(100))], ["true", ", "])),
     ListenerMap.Invocation(ids[2], Event(U32Tag, Num(100)), Reaction([], ["100"]))]
  }

  /** The test's text: listen for `String`, `bool` and `u32`, then send `"Hello, "` (`None`: out of fuel). */
  function SendFromOtherEvent(w: Observer.World, fuel: nat): Option<string>
    requires Observer.Wf(w)
  {
    var (w2, o, ids) := Setup(w, [StrTag, BoolTag, U32Tag], [StrFun, BoolFun, U32Fun]);
    match Observer.Send(w2, o, Event(StrTag, Text("Hello, ")), [], fuel)
    case None => None
    case Some(s) => Some(Concat(s.trace))
  }

  /** Each listener's send reaches the next one: the three texts are joined in order. */
  lemma SendFromOtherEventText(w: Observer.World, fuel: nat)
    requires Observer.Wf(w) && fuel >= 3
    ensures SendFromOtherEvent(w, fuel) == Some("Hello, true, 100")
  {
    var tags, funs := [StrTag, BoolTag, U32Tag], [StrFun, BoolFun, U32Fun];
    var (w2, o, ids) := Setup(w, tags, funs);
    OtherEventSetup(w);
    SendRelay(w2, o, OtherEventLog(ids), fuel);
    OtherEventOutput(ids);
    OtherEventConcat();
  }

  /** The four pieces written, joined. */
  lemma OtherEventConcat()
    ensures Concat(["Hello, ", "true", ", ", "100"]) == "Hello, true, 100"
  {
    var p1, p2, p3, p4 := ["Hello, "], ["Hello, ", "true"], ["Hello, ", "true", ", "], ["Hello, ", "true", ", ", "100"];
    assert p1[..0] == [];
    assert Concat(p1) == "Hello, ";
    assert p2[..1] == p1;
    assert Concat(p2) == "Hello, true";
    assert p3[..2] == p2;
    assert Concat(p3) == "Hello, true, ";
    assert p4[..3] == p3;
  }

  /** The test's registrations make its three invocations a relay. */
  lemma OtherEventSetup(w: Observer.World)
    requires Observer.Wf(w)
    ensures var (w2, o, ids) := Setup(w, [StrTag, BoolTag, U32Tag], [StrFun, BoolFun, U32Fun]);
      |ids| == 3 && Relay(w2.maps[o], Observer.Funs(w2), [], OtherEventLog(ids))
  {
    var tags, funs := [StrTag, BoolTag, U32Tag], [StrFun, BoolFun, U32Fun];
    SetupShape(w, tags, funs);
    var (w2, o, ids) := Setup(w, tags, funs);
    var reg, fs := w2.maps[o], Observer.Funs(w2);
    Observer.RegistryLive(w2, o);
    PicksDistinct(ids, tags);
    assert fs[ids[0]] == StrFun && fs[ids[1]] == BoolFun && fs[ids[2]] == U32Fun;
    OtherEventRelay(reg, fs, ids);
  }

  lemma OtherEventOutput(ids: seq<ListenerId>)
    requires |ids| == 3
    ensures ListenerMap.Output(OtherEventLog(ids)) == ["Hello, ", "true", ", ", "100"]
  {
    var log := OtherEventLog(ids);
    assert log[2..][1..] == [];
    assert log[1..][1..] == log[2..];
    assert ListenerMap.Output(log[2..]) == ["100"];
    assert ListenerMap.Output(log[1..]) == ["true", ", ", "100"];
  }

  lemma OtherEventRelay(reg: ListenerMap.Registry, fs: ListenerMap.Behaviours, ids: seq<ListenerId>)
    requires ListenerMap.Live(reg, fs) && |ids| == 3
    requires ListenerMap.Bucket(reg, StrTag) == [ids[0]] && ListenerMap.Bucket(reg, BoolTag) == [ids[1]]
    requires ListenerMap.Bucket(reg, U32Tag) == [ids[2]]
    requires ids[0] in fs && ids[1] in fs && ids[2] in fs
    requires fs[ids[0]] == StrFun && fs[ids[1]] == BoolFun && fs[ids[2]] == U32Fun
    ensures Relay(reg, fs, [], OtherEventLog(ids))
  {
    var log := OtherEventLog(ids);
    assert StrFun(log[0].event, []) == log[0].reaction;
    assert BoolFun(log[1].event, ListenerMap.Output(log[..1])) == log[1].reaction;
    assert NatToString(1) == "1" && NatToString(10) == "10" && NatToString(100) == "100";
    assert U32Fun(log[2].event, ListenerMap.Output(log[..2])) == log[2].reaction;
  }

  // looping_send

  /** Appends `"foo"` and sends `Bar`. */
  function FooFun(e: Event, trace: seq<string>): Reaction
  {
    Reaction([Event(BarTag, NoData)], ["foo"])
  }

  /** Appends `"bar"` and sends `Foo` while the vector, pushed onto, is shorter than six. */
  function BarFun(e: Event, trace: seq<string>): Reaction
  {
    Reaction(if |trace| + 1 < 6 then [Event(FooTag, NoData)] else [], ["bar"])
  }

  /** The six invocations of the test: `Foo` and `Bar` take turns. */
  function LoopLog(ids: seq<ListenerId>): (r: seq<ListenerMap.Invocation>)
    requires |ids| == 2
    ensures |r| == 6
  {
    seq(6, k requires 0 <= k < 6 =>
      if k % 2 == 0 then ListenerMap.Invocation(ids[0], Event(FooTag, NoData), Reaction([Event(BarTag, NoData)], ["foo"]))
      else ListenerMap.Invocation(ids[1], Event(BarTag, NoData), Reaction(if k + 1 < 6 then [Event(FooTag, NoData)] else [], ["bar"])))
  }

  /** The test's vector: listen for `Foo` and `Bar`, then send `Foo` (`None`: out of fuel). */
  function LoopingSend(w: Observer.World, fuel: nat): Option<seq<string>>
    requires Observer.Wf(w)
  {
    var (w2, o, ids) := Setup(w, [FooTag, BarTag], [FooFun, BarFun]);
    match Observer.Send(w2, o, Event(FooTag, NoData), [], fuel)
    case None => None
    case Some(s) => Some(s.trace)
  }

  /** The two listeners bounce the events until the vector holds six entries, then the loop ends. */
  lemma LoopingSendStops(w: Observer.World, fuel: nat)
    requires Observer.Wf(w) && fuel >= 6
    ensures LoopingSend(w, fuel) == Some(["foo", "bar", "foo", "bar", "foo", "bar"])
  {
    var tags, funs := [FooTag, BarTag], [FooFun, BarFun];
    var (w2, o, ids) := Setup(w, tags, funs);
    var log := LoopLog(ids);
    LoopSetup(w);
    SendRelay(w2, o, log, fuel);
    LoopOutput(ids);
  }

  /** The vector the six invocations fill. */
  lemma LoopOutput(ids: seq<ListenerId>)
    requires |ids| == 2
    ensures ListenerMap.Output(LoopLog(ids)) == ["foo", "bar", "foo", "bar", "foo", "bar"]
  {
    var log := LoopLog(ids);
    OutputOfSingletons(log);
    var out := ListenerMap.Output(log);
    assert out[0] == "foo" && out[1] == "bar" && out[2] == "foo" && out[3] == "bar" && out[4] == "foo" && out[5] == "bar";
  }

  /** The test's registrations make its six invocations a relay. */
  lemma LoopSetup(w: Observer.World)
    requires Observer.Wf(w)
    ensures var (w2, o, ids) := Setup(w, [FooTag, BarTag], [FooFun, BarFun]);
      |ids| == 2 && Relay(w2.maps[o], Observer.Funs(w2), [], LoopLog(ids))
  {
    var tags, funs := [FooTag, BarTag], [FooFun, BarFun];
    SetupShape(w, tags, funs);
    var (w2, o, ids) := Setup(w, tags, funs);
    var reg, fs := w2.maps[o], Observer.Funs(w2);
    Observer.RegistryLive(w2, o);
    PicksDistinct(ids, tags);
    assert fs[ids[0]] == FooFun && fs[ids[1]] == BarFun;
    LoopRelay(reg, fs, ids);
  }

  lemma LoopRelay(reg: ListenerMap.Registry, fs: ListenerMap.Behaviours, ids: seq<ListenerId>)
    requires ListenerMap.Live(reg, fs) && |ids| == 2
    requires ListenerMap.Bucket(reg, FooTag) == [ids[0]] && ListenerMap.Bucket(reg, BarTag) == [ids[1]]
    requires ids[0] in fs && ids[1] in fs && fs[ids[0]] == FooFun && fs[ids[1]] == BarFun
    ensures Relay(reg, fs, [], LoopLog(ids))
  {
    var log := LoopLog(ids);
    forall k | 0 <= k < 6
      ensures && ListenerMap.Bucket(reg, log[k].event.tag) == [log[k].listener]
              && log[k].listener in fs
              && fs[log[k].listener](log[k].event, [] + ListenerMap.Output(log[..k])) == log[k].reaction
              && log[k].reaction.emitted == (if k + 1 < 6 then [log[k + 1].event] else [])
    {
      OutputOfSingletons(log[..k]);
      if k % 2 == 0 {
        assert log[k].listener == ids[0] && log[k].event == Event(FooTag, NoData);
      } else {
        assert log[k].listener == ids[1] && log[k].event == Event(BarTag, NoData);
      }
    }
  }

  // add_listener_and_send, listen_and_send_and_check_event_args

  /** A fresh observer with one listener whose reaction to `e` sends nothing: the send runs it once. */
  lemma OneListenerSend(w: Observer.World, f: Behaviour, e: Event, fuel: nat)
    requires Observer.Wf(w) && f(e, []).emitted == [] && fuel >= 1
    ensures var (w2, o, ids) := Setup(w, [e.tag], [f]);
      |ids| == 1 && Observer.Send(w2, o, e, [], fuel) ==
      Some(ListenerMap.Session(EventPool.Pool([]), f(e, []).output, [e], [ListenerMap.Invocation(ids[0], e, f(e, []))]))
  {
    var tags, funs := [e.tag], [f];
    var (w2, o, ids) := Setup(w, tags, funs);
    var reg, fs := w2.maps[o], Observer.Funs(w2);
    var log := [ListenerMap.Invocation(ids[0], e, f(e, []))];
    assert Relay(reg, fs, [], log) by {
      SetupShape(w, tags, funs);
      Observer.RegistryLive(w2, o);
      PicksDistinct(ids, tags);
      assert fs[ids[0]] == f;
      SoleRelay(reg, fs, ids[0], e, f(e, []));
    }
    SendRelay(w2, o, log, fuel);
    OneInvocation(log[0]);
  }

  /** Stores the flag it receives. */
  function SetFlag(e: Event, trace: seq<string>): Reaction
  {
    match e.payload
    case Flag(b) => Reaction([], [BoolToString(b)])
    case _ => Quiet
  }

  /** The test's cell: listen for `bool`, then send `b` (`None`: out of fuel). */
  function AddListenerAndSend(w: Observer.World, b: bool, fuel: nat): Option<seq<string>>
    requires Observer.Wf(w)
  {
    var (w2, o, _) := Setup(w, [BoolTag], [SetFlag]);
    match Observer.Send(w2, o, Event(BoolTag, Flag(b)), [], fuel)
    case None => None
    case Some(s) => Some(s.trace)
  }

  /** The listener receives the flag that was sent, once. */
  lemma AddListenerAndSendStores(w: Observer.World, b: bool, fuel: nat)
    requires Observer.Wf(w) && fuel >= 1
    ensures AddListenerAndSend(w, b, fuel) == Some([BoolToString(b)])
  {
    OneListenerSend(w, SetFlag, Event(BoolTag, Flag(b)), fuel);
  }

  /** Stores the number carried by the event. */
  function SetCounter(e: Event, trace: seq<string>): Reaction
  {
    match e.payload
    case Num(n) => Reaction([], [NatToString(n)])
    case _ => Quiet
  }

  /** The test's counter: listen for `SomeEvent`, then send `SomeEvent(n)` (`None`: out of fuel). */
  function CheckEventArgs(w: Observer.World, n: nat, fuel: nat): Option<string>
    requires Observer.Wf(w)
  {
    var (w2, o, _) := Setup(w, [SomeEventTag], [SetCounter]);
    match Observer.Send(w2, o, Event(SomeEventTag, Num(n)), [], fuel)
    case None => None
    case Some(s) => Some(Concat(s.trace))
  }

  /** The listener sees the event's own field: the counter reads back as `n`. */
  lemma CheckEventArgsReadsField(w: Observer.World, n: nat, fuel: nat)
    requires Observer.Wf(w) && fuel >= 1
    ensures CheckEventArgs(w, n, fuel).Some? && DigitsValue(CheckEventArgs(w, n, fuel).value) == n
  {
    var e := Event(SomeEventTag, Num(n));
    var r := Setup(w, [SomeEventTag], [SetCounter]);
    OneListenerSend(w, SetCounter, e, fuel);
    var sent := Observer.Send(r.0, r.1, e, [], fuel);
    assert sent.Some? && sent.value.trace == [NatToString(n)];
    assert CheckEventArgs(w, n, fuel) == Some(Concat(sent.value.trace));
    assert [NatToString(n)][..0] == [];
    assert Concat([NatToString(n)]) == NatToString(n);
    NatToStringRoundTrip(n);
  }

  // several_identical_events

  /** Counts every event. */
  function Tick(e: Event, trace: seq<string>): Reaction
  {
    Reaction([], ["tick"])
  }

  /** Counts only a `false` flag. */
  function TickOnFalse(e: Event, trace: seq<string>): Reaction
  {
    if e.payload == Flag(false) then Reaction([], ["tick"]) else Quiet
  }

  /** The test's counter: three `bool` listeners, then send `true` (`None`: out of fuel). */
  function SeveralIdenticalEvents(w: Observer.World, fuel: nat): Option<nat>
    requires Observer.Wf(w)
  {
    var (w2, o, _) := Setup(w, [BoolTag, BoolTag, BoolTag], [Tick, TickOnFalse, Tick]);
    match Observer.Send(w2, o, Event(BoolTag, Flag(true)), [], fuel)
    case None => None
    case Some(s) => Some(|s.trace|)
  }

  /** All three listeners of the kind run, and the conditional one counts nothing. */
  lemma SeveralIdenticalEventsCount(w: Observer.World, fuel: nat)
    requires Observer.Wf(w) && fuel >= 1
    ensures SeveralIdenticalEvents(w, fuel) == Some(2)
  {
    var tags, funs := [BoolTag, BoolTag, BoolTag], [Tick, TickOnFalse, Tick];
    SetupShape(w, tags, funs);
    var (w2, o, ids) := Setup(w, tags, funs);
    var reg, fs := w2.maps[o], Observer.Funs(w2);
    Observer.RegistryLive(w2, o);
    PicksAll(ids, tags, BoolTag);
    var e := Event(BoolTag, Flag(true));
    ThreeTicks(reg, fs, ids, e);
    OneRound(reg, fs, e, [], fuel);
  }

  lemma ThreeTicks(reg: ListenerMap.Registry, fs: ListenerMap.Behaviours, ids: seq<ListenerId>, e: Event)
    requires ListenerMap.Live(reg, fs) && |ids| == 3 && e == Event(BoolTag, Flag(true))
    requires ListenerMap.Bucket(reg, BoolTag) == ids
    requires ids[0] in fs && ids[1] in fs && ids[2] in fs
    requires fs[ids[0]] == Tick && fs[ids[1]] == TickOnFalse && fs[ids[2]] == Tick
    ensures var added := ListenerMap.Added(reg, fs, e, []);
      ListenerMap.Emitted(added) == [] && |ListenerMap.Output(added)| == 2
  {
    assert BoolTag in reg && reg[BoolTag] == ids;
    var r := ListenerMap.NotifyAll(ids, fs, e, []);
    assert ListenerMap.Added(reg, fs, e, []) == r;
    assert |ListenerMap.Targets(r)| == |ListenerMap.Calls(ids, e)| == 3;
    assert r[0].reaction == Tick(e, [] + ListenerMap.Output(r[..0]));
    assert r[1].reaction == TickOnFalse(e, [] + ListenerMap.Output(r[..1]));
    assert r[2].reaction == Tick(e, [] + ListenerMap.Output(r[..2]));
    var last := r[2..];
    assert |last| == 1 && last[0] == r[2] && last[1..] == [];
    assert ListenerMap.Emitted(last[1..]) == [] && ListenerMap.Output(last[1..]) == [];
    assert ListenerMap.Emitted(last) == [] && ListenerMap.Output(last) == ["tick"];
    var tail := r[1..];
    assert tail[1..] == last && tail[0] == r[1];
    assert ListenerMap.Emitted(tail) == [] && ListenerMap.Output(tail) == ["tick"];
  }

  // listen_and_remove_listener_and_send, listener_tests::deactivate

  /**
   * A listener registered and then deactivated before the send never runs:
   * the event is dispatched to nobody and nothing is written.
   */
  lemma ListenDeactivateSend(w: Observer.World, f: Behaviour, e: Event, trace: seq<string>, fuel: nat)
    requires Observer.Wf(w) && fuel >= 1
    ensures var (w2, o, ids) := Setup(w, [e.tag], [f]);
      |ids| == 1 && ids[0] in w2.cells &&
      Observer.Send(Observer.Deactivate(w2, ids[0]), o, e, trace, fuel) ==
      Some(ListenerMap.Session(EventPool.Pool([]), trace, [e], []))
  {
    var tags, funs := [e.tag], [f];
    SetupShape(w, tags, funs);
    ListenAllRegisters(Observer.NewObserver(w).0, Observer.NewObserver(w).1, tags, funs);
    var (w2, o, ids) := Setup(w, tags, funs);
    PicksDistinct(ids, tags);
    var w3 := Observer.Deactivate(w2, ids[0]);
    assert Observer.BucketOf(w3, o, e.tag) == [] by {
      assert Observer.BucketOf(w2, o, e.tag) == [ids[0]];
      assert Lists.RemoveFirst([ids[0]], ids[0]) == [];
    }
    Observer.RegistryLive(w3, o);
    ListenerMap.NoListenersIsNoOp(w3.maps[o], Observer.Funs(w3), e, trace, fuel);
  }
}

=== FILE: plain_observer.dfy ===
/**
 * The smallest observer (`observer/value/main.rs`): a list of boxed closures
 * that `notify` runs in subscription order. There are no handles and no
 * unsubscribe. A closure is a pure function of the notified value and of the
 * state it captures (`S`).
 */
module PlainObserver {

  /** A boxed `FnMut(&T)`: the captured state after seeing the value. */
  type Callback<!T, !S> = (T, S) -> S

  datatype Observer<!T, !S> = Observer(subs: seq<Callback<T, S>>)

  /** `Observer::new`: no subscribers. */
  function New<T, S>(): (r: Observer<T, S>)
    ensures |r.subs| == 0
  {
    Observer([])
  }

  /** `subscribe`: exactly one closure more, at the end; the others keep their places. */
  function Subscribe<T, S>(ob: Observer<T, S>, call: Callback<T, S>): (r: Observer<T, S>)
    ensures |r.subs| == |ob.subs| + 1 && r.subs[|ob.subs|] == call
    ensures r.subs[..|ob.subs|] == ob.subs
  {
    Observer(ob.subs + [call])
  }

  /** Run the closures from the front, each seeing the state the previous one left. */
  function RunAll<T, S>(subs: seq<Callback<T, S>>, v: T, st: S): S
    decreases |subs|
  {
    if |subs| == 0 then st else RunAll(subs[1..], v, subs[0](v, st))
  }

  /**
   * `notify(v)`: `for_each` over the list, each closure once, with `v`. The
   * observer is taken by reference and comes back unchanged (the function
   * answers only the captured state). With no subscribers the state is left
   * alone; otherwise the last closure runs last, on what all earlier ones left.
   */
  function Notify<T, S>(ob: Observer<T, S>, v: T, st: S): (r: S)
    ensures |ob.subs| == 0 ==> r == st
    ensures |ob.subs| > 0 ==>
      r == ob.subs[|ob.subs| - 1](v, RunAll(ob.subs[..|ob.subs| - 1], v, st))
  {
    var n := |ob.subs|;
    if n > 0 then
      var last := ob.subs[n - 1];
      assert ob.subs[..n - 1] + [last] == ob.subs;
      RunAllAppend(ob.subs[..n - 1], [last], v, st);
      assert RunAll([last][1..], v, last(v, RunAll(ob.subs[..n - 1], v, st))) == last(v, RunAll(ob.subs[..n - 1], v, st));
      RunAll(ob.subs, v, st)
    else RunAll(ob.subs, v, st)
  }

  /** Running `a + b` is running `a`, then `b`. */
  lemma {:induction false} RunAllAppend<T, S>(a: seq<Callback<T, S>>, b: seq<Callback<T, S>>, v: T, st: S)
    ensures RunAll(a + b, v, st) == RunAll(b, v, RunAll(a, v, st))
    decreases |a|
  {
    if |a| == 0 {
      assert a + b == b;
    } else {
      assert (a + b)[1..] == a[1..] + b;
      RunAllAppend(a[1..], b, v, a[0](v, st));
    }
  }

  /** A closure subscribed last runs last, after every earlier one has run. */
  lemma NotifyAfterSubscribe<T, S>(ob: Observer<T, S>, call: Callback<T, S>, v: T, st: S)
    ensures Notify(Subscribe(ob, call), v, st) == call(v, Notify(ob, v, st))
  {
    RunAllAppend(ob.subs, [call], v, st);
    assert RunAll([call][1..], v, call(v, RunAll(ob.subs, v, st))) == call(v, RunAll(ob.subs, v, st));
  }

  /** With no subscribers `notify` leaves the captured state alone. */
  lemma NotifyEmpty<T, S>(ob: Observer<T, S>, v: T, st: S)
    requires |ob.subs| == 0
    ensures Notify(ob, v, st) == st
  {
  }

  /** The closure of `main`: push the value onto the accumulator. */
  function Push(v: int, acc: seq<int>): seq<int>
  {
    acc + [v]
  }

  /** `main`: one accumulating subscriber, then `notify(1)` and `notify(2)`. */
  function Demo(): (r: seq<int>)
  {
    var ob := Subscribe(New(), Push);
    Notify(ob, 2, Notify(ob, 1, []))
  }

  lemma DemoAccumulates()
    ensures Demo() == [1, 2]
  {
    var ob := Subscribe(New<int, seq<int>>(), Push);
    var empty := New<int, seq<int>>();
    NotifyAfterSubscribe(empty, Push, 1, []);
    NotifyEmpty(empty, 1, []);
    assert Notify(ob, 1, []) == [1];
    NotifyAfterSubscribe(empty, Push, 2, [1]);
    NotifyEmpty(empty, 2, [1]);
  }
}

=== FILE: relays.dfy ===
/**
 * Runs of the drain loop of a fixed shape, used by the demo and the tests:
 * a relay, where each popped event has one listener which sends the next
 * event, and a single round, where one event's whole bucket runs and sends
 * nothing.
 */
module Relays {
  import opened Wrappers
  import opened Events
  import EventPool
  import ListenerMap

  /** A registry bucket holding a single listener runs it once on the event. */
  lemma SoleListener(reg: ListenerMap.Registry, funs: ListenerMap.Behaviours, s: ListenerMap.Session,
                     e: Event, rest: EventPool.Pool<Event>, l: ListenerId)
    requires ListenerMap.Live(reg, funs) && ListenerMap.Bucket(reg, e.tag) == [l]
    ensures var re := funs[l](e, s.trace);
      ListenerMap.Next(reg, funs, s, e, rest) ==
        ListenerMap.Session(EventPool.Pool(rest.events + re.emitted), s.trace + re.output,
                            s.dispatched + [e], s.log + [ListenerMap.Invocation(l, e, re)])
  {
    var re := funs[l](e, s.trace);
    var added := ListenerMap.Added(reg, funs, e, s.trace);
    assert ListenerMap.Targets(added)[0] == ListenerMap.Calls([l], e)[0];
    assert added[..0] == [];
    assert added == [ListenerMap.Invocation(l, e, re)];
    assert added[1..] == [];
    assert ListenerMap.Emitted(added) == re.emitted + [];
    assert ListenerMap.Output(added) == re.output + [];
  }

  /**
   * One turn of the drain loop when the popped event's bucket holds a single
   * listener: it runs once, its sends join the back of the pool and its output
   * the end of the trace.
   */
  lemma DrainSole(reg: ListenerMap.Registry, funs: ListenerMap.Behaviours, s: ListenerMap.Session, fuel: nat,
                  e: Event, rest: seq<Event>, l: ListenerId, re: Reaction, next: ListenerMap.Session)
    requires ListenerMap.Live(reg, funs) && fuel > 0
    requires s.pool.events == [e] + rest && ListenerMap.Bucket(reg, e.tag) == [l] && re == funs[l](e, s.trace)
    requires next.pool.events == rest + re.emitted && next.trace == s.trace + re.output
    requires next.dispatched == s.dispatched + [e] && next.log == s.log + [ListenerMap.Invocation(l, e, re)]
    ensures ListenerMap.Drain(reg, funs, s, fuel) == ListenerMap.Drain(reg, funs, next, fuel - 1)
  {
    assert EventPool.Pop(s.pool) == (Some(e), EventPool.Pool(rest));
    SoleListener(reg, funs, s, e, EventPool.Pool(rest), l);
  }

  /** The events of a run of invocations, in order. */
  function EventsOf(log: seq<ListenerMap.Invocation>): (r: seq<Event>)
    ensures |r| == |log|
    ensures forall i :: 0 <= i < |log| ==> r[i] == log[i].event
  {
    seq(|log|, i requires 0 <= i < |log| => log[i].event)
  }

  /**
   * A relay: the event of each invocation has that invocation's listener alone
   * in its bucket, the listener reacts as logged to the output written before
   * it, and it sends exactly the event of the next invocation (the last sends
   * nothing).
   */
  ghost predicate Relay(reg: ListenerMap.Registry, funs: ListenerMap.Behaviours, trace: seq<string>, log: seq<ListenerMap.Invocation>)
  {
    ListenerMap.Live(reg, funs) && forall k :: 0 <= k < |log| ==> Link(reg, funs, trace, log, k)
  }

  /** Invocation `k` of a relay. */
  ghost predicate Link(reg: ListenerMap.Registry, funs: ListenerMap.Behaviours, trace: seq<string>, log: seq<ListenerMap.Invocation>, k: nat)
    requires k < |log|
  {
    && ListenerMap.Bucket(reg, log[k].event.tag) == [log[k].listener]
    && log[k].listener in funs
    && funs[log[k].listener](log[k].event, trace + ListenerMap.Output(log[..k])) == log[k].reaction
    && log[k].reaction.emitted == (if k + 1 < |log| then [log[k + 1].event] else [])
  }

  /** The invocations of a relay from `k` on, one link at a time. */
  ghost predicate LinksFrom(reg: ListenerMap.Registry, funs: ListenerMap.Behaviours, trace: seq<string>, log: seq<ListenerMap.Invocation>, k: nat)
    requires k <= |log|
    decreases |log| - k
  {
    k == |log| || (Link(reg, funs, trace, log, k) && LinksFrom(reg, funs, trace, log, k + 1))
  }

  lemma {:induction false} RelayLinks(reg: ListenerMap.Registry, funs: ListenerMap.Behaviours, trace: seq<string>, log: seq<ListenerMap.Invocation>, k: nat)
    requires Relay(reg, funs, trace, log) && k <= |log|
    ensures LinksFrom(reg, funs, trace, log, k)
    decreases |log| - k
  {
    if k < |log| {
      RelayLinks(reg, funs, trace, log, k + 1);
    }
  }

  /** The drain session of a relay after `k` turns of the loop. */
  function RelaySession(trace: seq<string>, log: seq<ListenerMap.Invocation>, k: nat): ListenerMap.Session
    requires k <= |log|
  {
    ListenerMap.Session(EventPool.Pool(if k < |log| then [log[k].event] else []),
                        trace + ListenerMap.Output(log[..k]), EventsOf(log[..k]), log[..k])
  }

  /** Turn `k + 1` of a relay's drain loop. */
  lemma RelayStep(reg: ListenerMap.Registry, funs: ListenerMap.Behaviours, trace: seq<string>, log: seq<ListenerMap.Invocation>, k: nat, fuel: nat,
                  result: Option<ListenerMap.Session>)
    requires ListenerMap.Live(reg, funs) && k < |log| && Link(reg, funs, trace, log, k) && fuel > 0
    requires ListenerMap.Drain(reg, funs, RelaySession(trace, log, k + 1), fuel - 1) == result
    ensures ListenerMap.Drain(reg, funs, RelaySession(trace, log, k), fuel) == result
  {
    var s, next := RelaySession(trace, log, k), RelaySession(trace, log, k + 1);
    RelayNext(trace, log, k);
    assert s.pool.events == [log[k].event] + [];
    assert next.pool.events == [] + log[k].reaction.emitted;
    DrainSole(reg, funs, s, fuel, log[k].event, [], log[k].listener, log[k].reaction, next);
  }

  /** The sessions before and after turn `k + 1` of a relay differ by invocation `k` alone. */
  lemma RelayNext(trace: seq<string>, log: seq<ListenerMap.Invocation>, k: nat)
    requires k < |log|
    ensures var s, next := RelaySession(trace, log, k), RelaySession(trace, log, k + 1);
      && s.pool.events == [log[k].event]
      && next.trace == s.trace + log[k].reaction.output
      && next.dispatched == s.dispatched + [log[k].event]
      && next.log == s.log + [ListenerMap.Invocation(log[k].listener, log[k].event, log[k].reaction)]
  {
    assert log[..k + 1] == log[..k] + [log[k]];
    ListenerMap.OutputAppend(log[..k], [log[k]]);
    assert ListenerMap.Output([log[k]]) == log[k].reaction.output;
    assert EventsOf(log[..k + 1]) == EventsOf(log[..k]) + [log[k].event];
  }

  /** From turn `k` on, with a turn of fuel per invocation left, a relay's drain loop ends in the session after its last invocation. */
  lemma {:induction false} RelayFrom(reg: ListenerMap.Registry, funs: ListenerMap.Behaviours, trace: seq<string>, log: seq<ListenerMap.Invocation>, k: nat, fuel: nat)
    requires ListenerMap.Live(reg, funs) && k <= |log| && LinksFrom(reg, funs, trace, log, k) && fuel >= |log| - k
    ensures ListenerMap.Drain(reg, funs, RelaySession(trace, log, k), fuel) == Some(RelaySession(trace, log, |log|))
    decreases |log| - k
  {
    if k < |log| {
      var last := Some(RelaySession(trace, log, |log|));
      assert Link(reg, funs, trace, log, k) && LinksFrom(reg, funs, trace, log, k + 1);
      assert ListenerMap.Drain(reg, funs, RelaySession(trace, log, k + 1), fuel - 1) == last by {
        RelayFrom(reg, funs, trace, log, k + 1, fuel - 1);
      }
      RelayStep(reg, funs, trace, log, k, fuel, last);
    } else {
      RelayDone(reg, funs, trace, log, k, fuel);
    }
  }

  /** Once the last invocation has run, the pool is empty and the loop stops. */
  lemma RelayDone(reg: ListenerMap.Registry, funs: ListenerMap.Behaviours, trace: seq<string>, log: seq<ListenerMap.Invocation>, k: nat, fuel: nat)
    requires ListenerMap.Live(reg, funs) && k == |log|
    ensures ListenerMap.Drain(reg, funs, RelaySession(trace, log, k), fuel) == Some(RelaySession(trace, log, |log|))
  {
    assert RelaySession(trace, log, k).pool.events == [];
  }

  /**
   * `call` on the first event of a relay, with at least one turn of fuel per
   * invocation: exactly the logged invocations happen, in order, and the output
   * grows by what they wrote.
   */
  lemma RelayCall(reg: ListenerMap.Registry, funs: ListenerMap.Behaviours, trace: seq<string>, log: seq<ListenerMap.Invocation>, fuel: nat)
    requires Relay(reg, funs, trace, log) && |log| > 0 && fuel >= |log|
    ensures ListenerMap.Call(reg, funs, log[0].event, trace, fuel) ==
            Some(ListenerMap.Session(EventPool.Pool([]), trace + ListenerMap.Output(log), EventsOf(log), log))
  {
    RelayEnds(trace, log);
    RelayLinks(reg, funs, trace, log, 0);
    RelayFrom(reg, funs, trace, log, 0, fuel);
  }

  /** A relay's drain starts from the pool seeded with its first event and ends with its whole log. */
  lemma RelayEnds(trace: seq<string>, log: seq<ListenerMap.Invocation>)
    requires |log| > 0
    ensures RelaySession(trace, log, 0) == ListenerMap.Session(EventPool.From(log[0].event), trace, [], [])
    ensures RelaySession(trace, log, |log|) ==
            ListenerMap.Session(EventPool.Pool([]), trace + ListenerMap.Output(log), EventsOf(log), log)
  {
    assert log[..|log|] == log;
  }

  /** A listener alone in its bucket that sends nothing makes a relay of one invocation. */
  lemma SoleRelay(reg: ListenerMap.Registry, fs: ListenerMap.Behaviours, l: ListenerId, e: Event, re: Reaction)
    requires ListenerMap.Live(reg, fs) && ListenerMap.Bucket(reg, e.tag) == [l]
    requires l in fs && fs[l](e, []) == re && re.emitted == []
    ensures Relay(reg, fs, [], [ListenerMap.Invocation(l, e, re)])
  {
    var log := [ListenerMap.Invocation(l, e, re)];
    assert log[..0] == [];
  }

  /** A log of one invocation wrote what that invocation wrote and dispatched its event. */
  lemma OneInvocation(inv: ListenerMap.Invocation)
    ensures ListenerMap.Output([inv]) == inv.reaction.output
    ensures EventsOf([inv]) == [inv.event]
  {
    assert [inv][1..] == [];
    assert inv.reaction.output + [] == inv.reaction.output;
  }

  /** The output written by a run of invocations that each wrote one piece, piece by piece. */
  lemma {:induction false} OutputOfSingletons(log: seq<ListenerMap.Invocation>)
    requires forall i :: 0 <= i < |log| ==> |log[i].reaction.output| == 1
    ensures ListenerMap.Output(log) == seq(|log|, i requires 0 <= i < |log| => log[i].reaction.output[0])
  {
    if |log| > 0 {
      OutputOfSingletons(log[1..]);
      assert log[0].reaction.output == [log[0].reaction.output[0]];
    }
  }

  /**
   * One event whose listeners send nothing: a single turn of the loop runs its
   * bucket in order and the drain ends.
   */
  lemma OneRound(reg: ListenerMap.Registry, funs: ListenerMap.Behaviours, e: Event, trace: seq<string>, fuel: nat)
    requires ListenerMap.Live(reg, funs) && fuel >= 1
    requires ListenerMap.Emitted(ListenerMap.Added(reg, funs, e, trace)) == []
    ensures var added := ListenerMap.Added(reg, funs, e, trace);
      ListenerMap.Call(reg, funs, e, trace, fuel) ==
      Some(ListenerMap.Session(EventPool.Pool([]), trace + ListenerMap.Output(added), [e], added))
  {
    var start := ListenerMap.Session(EventPool.From(e), trace, [], []);
    assert EventPool.Pop(start.pool) == (Some(e), EventPool.Pool([]));
    var next := ListenerMap.Next(reg, funs, start, e, EventPool.Pool([]));
    OneRoundNext(reg, funs, e, trace);
    assert ListenerMap.Drain(reg, funs, next, fuel - 1) == Some(next);
  }

  /** The session after the single turn: the pool is empty again and the bucket's invocations are logged. */
  lemma OneRoundNext(reg: ListenerMap.Registry, funs: ListenerMap.Behaviours, e: Event, trace: seq<string>)
    requires ListenerMap.Live(reg, funs)
    requires ListenerMap.Emitted(ListenerMap.Added(reg, funs, e, trace)) == []
    ensures var added := ListenerMap.Added(reg, funs, e, trace);
      ListenerMap.Next(reg, funs, ListenerMap.Session(EventPool.From(e), trace, [], []), e, EventPool.Pool([])) ==
      ListenerMap.Session(EventPool.Pool([]), trace + ListenerMap.Output(added), [e], added)
  {
    var added := ListenerMap.Added(reg, funs, e, trace);
    if ListenerMap.Bucket(reg, e.tag) == [] {
      assert added == [];
    } else {
      assert [] + added == added;
    }
  }
}

=== FILE: toggle.dfy ===
/**
 * The three-state toggle of the state pattern, in its two variants: in
 * `state_return` each state answers its successor and `switch` stores it; in
 * `state_inside` each state calls `set_state` on the toggle itself. Both cycle
 * first -> second -> third -> first.
 */
module ToggleStates {
  import Wrappers

  /** `FirstState`, `SecondState`, `ThirdState`. */
  datatype State = First | Second | Third

  /** `State::name` of each state. */
  function Name(s: State): (r: string)
    ensures r == "first" || r == "second" || r == "third"
  {
    match s
    case First => "first"
    case Second => "second"
    case Third => "third"
  }

  /** Position of a state in the cycle; an independent description of the order. */
  function Index(s: State): (r: nat)
    ensures r < 3
  {
    match s
    case First => 0
    case Second => 1
    case Third => 2
  }

  /** The state at a position of the cycle. */
  function AtIndex(k: nat): (r: State)
    ensures Index(r) == k % 3
  {
    if k % 3 == 0 then First else if k % 3 == 1 then Second else Third
  }

  /** Reading a printed name back. */
  function Parse(name: string): (r: Wrappers.Option<State>)
  {
    if name == "first" then Wrappers.Some(First)
    else if name == "second" then Wrappers.Some(Second)
    else if name == "third" then Wrappers.Some(Third)
    else Wrappers.None
  }

  /** The name tells the state: reading it back gives the state that printed it. */
  lemma ParseName(s: State)
    ensures Parse(Name(s)) == Wrappers.Some(s)
  {
    assert "second"[0] != "first"[0];
    assert "third"[0] != "first"[0] && "third"[0] != "second"[0];
  }

  /** Hence no two states print the same name. */
  lemma NameInjective(a: State, b: State)
    ensures Name(a) == Name(b) <==> a == b
  {
    ParseName(a);
    ParseName(b);
  }
}

module StateReturn {
  import opened Wrappers
  import opened ToggleStates

  /** `Toggle { state: Option<Box<dyn State>> }`. */
  datatype Toggle = Toggle(state: Option<State>)

  /** `Toggle::new`: starts in the first state. */
  function New(): (r: Toggle)
    ensures r.state == Some(First)
  {
    Toggle(Some(First))
  }

  /** `next_state` of each state: the successor it boxes and returns. */
  function NextState(s: State): (r: State)
    ensures Index(r) == (Index(s) + 1) % 3
  {
    match s
    case First => Second
    case Second => Third
    case Third => First
  }

  /** `switch`: `take().unwrap()`, ask for the successor, store it. `None` is the panic of an empty toggle. */
  function Switch(t: Toggle): (r: Option<Toggle>)
    ensures r.Some? <==> t.state.Some?
    ensures r.Some? ==> r.value.state.Some? && Index(r.value.state.value) == (Index(t.state.value) + 1) % 3
  {
    match t.state
    case None => None
    case Some(current) => Some(Toggle(Some(NextState(current))))
  }

  /** `name`: the current state's name; `None` is the panic of an empty toggle. */
  function ToggleName(t: Toggle): (r: Option<string>)
    ensures r.Some? <==> t.state.Some?
    ensures r.Some? ==> r.value in {"first", "second", "third"}
    ensures r.Some? ==> Parse(r.value) == t.state
  {
    match t.state
    case None => None
    case Some(s) => ParseName(s); Some(Name(s))
  }

  /** `n` switches in a row; `None` once a switch panics. */
  function SwitchTimes(t: Toggle, n: nat): Option<Toggle>
    decreases n
  {
    if n == 0 then Some(t)
    else
      match Switch(t)
      case None => None
      case Some(t1) => SwitchTimes(t1, n - 1)
  }

  /** From `new`, any number of switches never panics and lands on the state `n` steps along the cycle. */
  lemma {:induction false} SwitchTimesFromNew(n: nat)
    ensures SwitchTimes(New(), n) == Some(Toggle(Some(AtIndex(n))))
  {
    SwitchTimesFrom(First, n);
  }

  lemma {:induction false} SwitchTimesFrom(s: State, n: nat)
    ensures SwitchTimes(Toggle(Some(s)), n) == Some(Toggle(Some(AtIndex(Index(s) + n))))
    decreases n
  {
    if n > 0 {
      SwitchTimesFrom(NextState(s), n - 1);
      IndexDeterminesState(AtIndex(Index(NextState(s)) + n - 1), AtIndex(Index(s) + n));
    } else {
      IndexDeterminesState(s, AtIndex(Index(s)));
    }
  }

  lemma IndexDeterminesState(a: State, b: State)
    requires Index(a) == Index(b)
    ensures a == b
  {
  }

  /** Any multiple of three switches brings a non-empty toggle back where it started. */
  lemma SwitchPeriod(t: Toggle, k: nat)
    requires t.state.Some?
    ensures SwitchTimes(t, 3 * k) == Some(t)
  {
    var s := t.state.value;
    SwitchTimesFrom(s, 3 * k);
    IndexDeterminesState(AtIndex(Index(s) + 3 * k), s);
  }

  /** `main`: the names after zero, one, two and three switches. */
  function Demo(): (r: seq<Option<string>>)
  {
    seq(4, k requires 0 <= k < 4 => match SwitchTimes(New(), k) case None => None case Some(t) => ToggleName(t))
  }

  lemma DemoNames()
    ensures Demo() == [Some("first"), Some("second"), Some("third"), Some("first")]
  {
    SwitchTimesFromNew(0);
    SwitchTimesFromNew(1);
    SwitchTimesFromNew(2);
    SwitchTimesFromNew(3);
  }
}

module StateInside {
  import opened Wrappers
  import opened ToggleStates
  import StateReturn

  /** `Toggle { state: Option<Box<dyn State>> }`. */
  datatype Toggle = Toggle(state: Option<State>)

  /** `Toggle::new`: starts in the first state. */
  function New(): (r: Toggle)
    ensures r.state == Some(First)
  {
    Toggle(Some(First))
  }

  /** `set_state`: whatever was there, the toggle now holds `s`. */
  function SetState(t: Toggle, s: State): (r: Toggle)
    ensures r.state == Some(s)
  {
    t.(state := Some(s))
  }

  /** `next_state` of each state: call `set_state` on the toggle with the successor. */
  function NextState(s: State, t: Toggle): (r: Toggle)
    ensures r.state.Some? && Index(r.state.value) == (Index(s) + 1) % 3
  {
    match s
    case First => SetState(t, Second)
    case Second => SetState(t, Third)
    case Third => SetState(t, First)
  }

  /**
   * `switch`: `take().unwrap()` empties the toggle, then the taken state's
   * `next_state` fills it again. `None` is the panic of an empty toggle.
   */
  function Switch(t: Toggle): (r: Option<Toggle>)
    ensures r.Some? <==> t.state.Some?
    ensures r.Some? ==> r.value.state.Some? && Index(r.value.state.value) == (Index(t.state.value) + 1) % 3
  {
    match t.state
    case None => None
    case Some(current) => Some(NextState(current, t.(state := None)))
  }

  /** `name`: the current state's name; `None` is the panic of an empty toggle. */
  function ToggleName(t: Toggle): (r: Option<string>)
    ensures r.Some? <==> t.state.Some?
    ensures r.Some? ==> Parse(r.value) == t.state
  {
    match t.state
    case None => None
    case Some(s) => ParseName(s); Some(Name(s))
  }

  /** Both designs switch alike: asking for the successor and having the state set it are the same step. */
  lemma SwitchAgrees(t: Toggle)
    ensures var r := Switch(t);
      var q := StateReturn.Switch(StateReturn.Toggle(t.state));
      (r.Some? <==> q.Some?) && (r.Some? ==> r.value.state == q.value.state)
  {
  }

  /** Names agree too, so `main` prints first, second, third, first here as well. */
  lemma DemoNames()
    ensures ToggleName(New()) == Some("first")
    ensures ToggleName(Switch(New()).value) == Some("second")
    ensures ToggleName(Switch(Switch(New()).value).value) == Some("third")
    ensures Switch(Switch(Switch(New()).value).value).value == New()
  {
  }
}

=== FILE: typed_observer.dfy ===
/**
 * The simple typed observer, without nesting or an event pool: `Observer` keeps,
 * per event kind, the list of subscribers in subscription order, and `notify`
 * runs that list once. The module covers `safe/type_observer/observer.rs` with
 * `subscriber.rs`, and the two single-file copies of the same design
 * (`safe/type_observer/main.rs`, `unsafe/type_observer/main.rs`), which behave
 * the same (the unsafe copy inlines `add`, `get_subscribers` and `call`).
 *
 * A subscriber's closure lives in a shared cell (`Rc<RefCell<..>>`); the cell is
 * named by a `CallId` and its closure is a pure function of the event and of the
 * state the closures capture (`S`: a `String`, a counter, a flag ...).
 */
module TypedObserver {
  import opened Wrappers
  import opened Events
  import Lists
  import PlainObserver

  /** Identity of a subscriber's callback cell (`Rc::ptr_eq`). */
  type CallId = nat

  /** A closure body: the captured state after handling the event. */
  type Callback<!S> = (Event, S) -> S

  /** The shared callback cell, with the kind of event its closure was written for. */
  datatype Cell<!S> = Cell(eventId: Tag, fun: Callback<S>)

  /** `Subscriber { event_id, fun }`: the kind it listens to and its callback cell. */
  datatype Subscriber = Subscriber(eventId: Tag, call: CallId)

  /** The subscriber lists per kind, the callback cells, and the next unused cell identity. */
  datatype Observer<!S> = Observer(subscribers: map<Tag, seq<Subscriber>>, cells: map<CallId, Cell<S>>, nextCall: nat)

  /** What one `notify` did: the captured state afterwards and the cells it called, in order. */
  datatype Outcome<S> = Outcome(state: S, called: seq<CallId>)

  /** `PartialEq for Subscriber`: the same callback cell, whatever the recorded kind. */
  predicate Same(a: Subscriber, b: Subscriber)
  {
    a.call == b.call
  }

  /** `Subscriber::clone`: the same kind and a second handle on the same cell. */
  function Clone(s: Subscriber): (r: Subscriber)
    ensures Same(r, s) && r.eventId == s.eventId
  {
    Subscriber(s.eventId, s.call)
  }

  /** `Event::cast`: the payload when the event is of the expected kind; `None` stands for the `unwrap` panic. */
  function Cast(e: Event, expected: Tag): (r: Option<Payload>)
    ensures r.Some? <==> e.tag == expected
    ensures r.Some? ==> r.value == e.payload
  {
    if e.tag == expected then Some(e.payload) else None
  }

  /** The cell identities of a subscriber list, in order. */
  function CallsOf(s: seq<Subscriber>): (r: seq<CallId>)
    ensures |r| == |s|
    ensures forall i :: 0 <= i < |s| ==> r[i] == s[i].call
  {
    seq(|s|, i requires 0 <= i < |s| => s[i].call)
  }

  /** The list registered for a kind; a missing key reads as the empty list. */
  function Bucket<S>(ob: Observer<S>, t: Tag): seq<Subscriber>
  {
    if t in ob.subscribers then ob.subscribers[t] else []
  }

  /** Every listed subscriber sits under its own kind, has a live cell made for that kind, and the cell identity was handed out. */
  ghost predicate Sound<S>(ob: Observer<S>)
  {
    forall t, i :: t in ob.subscribers && 0 <= i < |ob.subscribers[t]| ==> Placed(ob, t, ob.subscribers[t][i])
  }

  ghost predicate Placed<S>(ob: Observer<S>, t: Tag, s: Subscriber)
  {
    s.eventId == t && s.call < ob.nextCall && s.call in ob.cells && ob.cells[s.call].eventId == t
  }

  /** No cell is listed twice in one list. */
  ghost predicate Distinct(s: seq<Subscriber>)
  {
    forall i, j :: 0 <= i < j < |s| ==> s[i].call != s[j].call
  }

  ghost predicate Wf<S>(ob: Observer<S>)
  {
    && Sound(ob)
    && (forall t :: t in ob.subscribers ==> Distinct(ob.subscribers[t]))
    && (forall c :: c in ob.cells ==> c < ob.nextCall)
  }

  /** A handle the observer handed out: its cell exists and was made for its kind. */
  ghost predicate Handle<S>(ob: Observer<S>, h: Subscriber)
  {
    h.call in ob.cells && ob.cells[h.call].eventId == h.eventId
  }

  /** `Observer::new`: no subscribers at all. */
  function New<S>(): (r: Observer<S>)
    ensures Wf(r)
    ensures forall t :: Bucket(r, t) == []
  {
    Observer(map[], map[], 0)
  }

  /** `add`: append to the kind's list, or start the list when the kind has none. */
  function Add<S>(ob: Observer<S>, s: Subscriber): (r: Observer<S>)
    ensures r.subscribers == ob.subscribers[s.eventId := Bucket(ob, s.eventId) + [s]]
    ensures r.cells == ob.cells && r.nextCall == ob.nextCall
  {
    var event := s.eventId;
    if event in ob.subscribers then
      ob.(subscribers := ob.subscribers[event := ob.subscribers[event] + [s]])
    else
      assert Bucket(ob, event) + [s] == [s];
      ob.(subscribers := ob.subscribers[event := [s]])
  }

  /**
   * `subscribe::<E>(call)`: a fresh cell for `call`, one subscriber appended at
   * the end of `E`'s list, and a handle equal to it returned.
   */
  function Subscribe<S>(ob: Observer<S>, eventId: Tag, call: Callback<S>): (r: (Observer<S>, Subscriber))
    requires Wf(ob)
    ensures Wf(r.0) && Handle(r.0, r.1)
    ensures r.1.eventId == eventId && r.1.call !in CallsOf(Bucket(ob, eventId))
    ensures r.0.subscribers == ob.subscribers[eventId := Bucket(ob, eventId) + [r.1]]
    ensures r.1.call !in ob.cells && r.0.cells == ob.cells[r.1.call := Cell(eventId, call)]
  {
    var id := ob.nextCall;
    var created := Subscriber(eventId, id);
    var ob1 := ob.(cells := ob.cells[id := Cell(eventId, call)], nextCall := id + 1);
    var r := Add(ob1, Clone(created));
    SubscribeKeepsWf(ob, ob1, r, created, call);
    (r, created)
  }

  lemma SubscribeKeepsWf<S>(ob: Observer<S>, ob1: Observer<S>, r: Observer<S>, created: Subscriber, call: Callback<S>)
    requires Wf(ob) && created.call == ob.nextCall
    requires ob1 == ob.(cells := ob.cells[created.call := Cell(created.eventId, call)], nextCall := created.call + 1)
    requires r == Add(ob1, created)
    ensures Wf(r) && created.call !in CallsOf(Bucket(ob, created.eventId))
  {
    var b := Bucket(ob, created.eventId);
    assert forall i :: 0 <= i < |b| ==> b[i].call < created.call;
    forall t, i | t in r.subscribers && 0 <= i < |r.subscribers[t]|
      ensures Placed(r, t, r.subscribers[t][i])
    {
      if t == created.eventId && i < |b| {
        assert r.subscribers[t][i] == b[i];
      }
    }
    forall t | t in r.subscribers
      ensures Distinct(r.subscribers[t])
    {
      if t == created.eventId {
        assert r.subscribers[t] == b + [created];
      }
    }
  }

  /** The least position holding `h`'s cell, as `iter().position(|val| val == &subscriber)` finds it. */
  function Position(s: seq<Subscriber>, h: Subscriber): (r: Option<nat>)
    ensures r.None? <==> h.call !in CallsOf(s)
    ensures r.Some? ==> r.value < |s| && Same(s[r.value], h) && h.call !in CallsOf(s[..r.value])
  {
    var r := Lists.IndexOf(CallsOf(s), h.call);
    if r.Some? then
      assert CallsOf(s[..r.value]) == CallsOf(s)[..r.value];
      r
    else r
  }

  /** Remove the first subscriber equal to `h`, leaving the list alone when there is none. */
  function RemoveSubscriber(s: seq<Subscriber>, h: Subscriber): (r: seq<Subscriber>)
    ensures h.call !in CallsOf(s) ==> r == s
    ensures h.call in CallsOf(s) ==> exists i :: 0 <= i < |s| && Same(s[i], h) && h.call !in CallsOf(s[..i]) && r == s[..i] + s[i + 1..]
  {
    match Position(s, h)
    case None => s
    case Some(i) => s[..i] + s[i + 1..]
  }

  /** `unsubscribe(h)`: drop the first equal entry of `h`'s kind; a missing kind or entry changes nothing and no key is created. */
  function Unsubscribe<S>(ob: Observer<S>, h: Subscriber): (r: Observer<S>)
    ensures h.eventId !in ob.subscribers ==> r == ob
    ensures h.eventId in ob.subscribers ==> r.subscribers == ob.subscribers[h.eventId := RemoveSubscriber(ob.subscribers[h.eventId], h)]
    ensures r.cells == ob.cells && r.nextCall == ob.nextCall
  {
    if h.eventId in ob.subscribers then
      ob.(subscribers := ob.subscribers[h.eventId := RemoveSubscriber(ob.subscribers[h.eventId], h)])
    else
      ob
  }

  /** Every subscriber of the list has a callback cell. */
  predicate Subscribed<S>(ob: Observer<S>, list: seq<Subscriber>)
  {
    forall i :: 0 <= i < |list| ==> list[i].call in ob.cells
  }

  /** The closures behind a list of subscribers, in list order: the list seen as plain closures. */
  function Funs<S>(cells: map<CallId, Cell<S>>, list: seq<Subscriber>): (r: seq<PlainObserver.Callback<Event, S>>)
    requires forall i :: 0 <= i < |list| ==> list[i].call in cells
    ensures |r| == |list|
    ensures forall i :: 0 <= i < |list| ==> r[i] == cells[list[i].call].fun
  {
    seq(|list|, i requires 0 <= i < |list| => cells[list[i].call].fun)
  }

  /**
   * Run the list in order, each closure seeing the state the previous one
   * left: the state is that of the plain closure list behind the handles.
   */
  function RunAll<S>(cells: map<CallId, Cell<S>>, list: seq<Subscriber>, e: Event, st: S): (r: Outcome<S>)
    requires forall i :: 0 <= i < |list| ==> list[i].call in cells
    ensures r.called == CallsOf(list)
    ensures r.state == PlainObserver.RunAll(Funs(cells, list), e, st)
    decreases |list|
  {
    if |list| == 0 then Outcome(st, [])
    else
      var tail := list[1..];
      assert forall i :: 0 <= i < |tail| ==> tail[i] == list[i + 1];
      var rest := RunAll(cells, tail, e, cells[list[0].call].fun(e, st));
      assert forall i :: 0 <= i < |rest.called| ==> rest.called[i] == list[i + 1].call;
      assert Funs(cells, list)[1..] == Funs(cells, tail);
      Outcome(rest.state, [list[0].call] + rest.called)
  }

  /**
   * `notify(e)`: every subscriber of `e`'s kind runs once, in subscription
   * order; a kind without a list runs nothing (`get_mut` never inserts). Every
   * cell that runs was subscribed for `e`'s kind, so a downcast of `e` to that
   * kind would succeed (no code of the crate calls `Event::cast`, though).
   */
  function Notify<S>(ob: Observer<S>, e: Event, st: S): (r: Outcome<S>)
    requires Wf(ob)
    ensures e.tag !in ob.subscribers ==> r == Outcome(st, [])
    ensures r.called == CallsOf(Bucket(ob, e.tag))
    ensures forall c :: c in r.called ==> c in ob.cells && ob.cells[c].eventId == e.tag
    ensures forall c :: c in r.called ==> c in ob.cells && Cast(e, ob.cells[c].eventId) == Some(e.payload)
    ensures Subscribed(ob, Bucket(ob, e.tag)) &&
      r.state == PlainObserver.Notify(PlainObserver.Observer(Funs(ob.cells, Bucket(ob, e.tag))), e, st)
  {
    if e.tag in ob.subscribers then
      var list := ob.subscribers[e.tag];
      var r := RunAll(ob.cells, list, e, st);
      assert forall c :: c in r.called ==> exists i :: 0 <= i < |list| && list[i].call == c;
      r
    else
      Outcome(st, [])
  }

  /** Running `a + b` is running `a`, then `b` on the state `a` left: the closures run strictly in list order. */
  lemma {:induction false} RunAllAppend<S>(cells: map<CallId, Cell<S>>, a: seq<Subscriber>, b: seq<Subscriber>, e: Event, st: S)
    requires forall i :: 0 <= i < |a| ==> a[i].call in cells
    requires forall i :: 0 <= i < |b| ==> b[i].call in cells
    ensures RunAll(cells, a + b, e, st).state == RunAll(cells, b, e, RunAll(cells, a, e, st).state).state
    decreases |a|
  {
    if |a| == 0 {
      assert a + b == b;
    } else {
      assert (a + b)[1..] == a[1..] + b;
      RunAllAppend(cells, a[1..], b, e, cells[a[0].call].fun(e, st));
    }
  }

  /** An empty or missing list runs nothing. */
  lemma NotifyNone<S>(ob: Observer<S>, e: Event, st: S)
    requires Wf(ob) && Bucket(ob, e.tag) == []
    ensures Notify(ob, e, st) == Outcome(st, [])
  {
  }

  /** A list of one subscriber runs exactly its closure once. */
  lemma NotifyOne<S>(ob: Observer<S>, e: Event, h: Subscriber, st: S)
    requires Wf(ob) && e.tag in ob.subscribers && ob.subscribers[e.tag] == [h]
    ensures h.call in ob.cells && Notify(ob, e, st).state == ob.cells[h.call].fun(e, st)
  {
    var list := ob.subscribers[e.tag];
    assert list[0] == h && list[1..] == [];
    assert RunAll(ob.cells, list[1..], e, ob.cells[h.call].fun(e, st)).state == ob.cells[h.call].fun(e, st);
  }

  /** Deleting one entry of a list without repeats leaves no repeats and no copy of the deleted cell. */
  lemma DeleteKeepsDistinct(s: seq<Subscriber>, i: nat)
    requires Distinct(s) && i < |s|
    ensures Distinct(s[..i] + s[i + 1..])
    ensures s[i].call !in CallsOf(s[..i] + s[i + 1..])
  {
    var r := s[..i] + s[i + 1..];
    assert forall k :: 0 <= k < |r| ==> r[k] == if k < i then s[k] else s[k + 1];
  }

  /** `unsubscribe` keeps the observer well formed. */
  lemma UnsubscribeKeepsWf<S>(ob: Observer<S>, h: Subscriber)
    requires Wf(ob)
    ensures Wf(Unsubscribe(ob, h))
  {
    var r := Unsubscribe(ob, h);
    if h.eventId in ob.subscribers {
      var s := ob.subscribers[h.eventId];
      if h.call in CallsOf(s) {
        var i :| 0 <= i < |s| && Same(s[i], h) && h.call !in CallsOf(s[..i]) && r.subscribers[h.eventId] == s[..i] + s[i + 1..];
        DeleteKeepsWf(ob, h.eventId, i);
      }
    }
  }

  /** Deleting any one entry of one list keeps the observer well formed. */
  lemma DeleteKeepsWf<S>(ob: Observer<S>, t: Tag, i: nat)
    requires Wf(ob) && t in ob.subscribers && i < |ob.subscribers[t]|
    ensures var s := ob.subscribers[t];
      Wf(ob.(subscribers := ob.subscribers[t := s[..i] + s[i + 1..]]))
  {
    var s := ob.subscribers[t];
    var d := s[..i] + s[i + 1..];
    var r := ob.(subscribers := ob.subscribers[t := d]);
    DeleteKeepsDistinct(s, i);
    forall u, k | u in r.subscribers && 0 <= k < |r.subscribers[u]|
      ensures Placed(r, u, r.subscribers[u][k])
    {
      if u == t {
        assert d[k] == if k < i then s[k] else s[k + 1];
      }
    }
  }

  /** Under a well-formed observer a handle's cell is listed at most under the handle's own kind. */
  lemma OnlyUnderOwnKind<S>(ob: Observer<S>, h: Subscriber, t: Tag)
    requires Wf(ob) && Handle(ob, h) && t in ob.subscribers && t != h.eventId
    ensures h.call !in CallsOf(ob.subscribers[t])
  {
    var s := ob.subscribers[t];
    assert forall i :: 0 <= i < |s| ==> s[i].call != h.call;
  }

  /** After `unsubscribe(h)` no list holds `h`'s cell any more. */
  lemma UnsubscribeRemovesEverywhere<S>(ob: Observer<S>, h: Subscriber, t: Tag)
    requires Wf(ob) && Handle(ob, h)
    ensures h.call !in CallsOf(Bucket(Unsubscribe(ob, h), t))
  {
    var r := Unsubscribe(ob, h);
    if t != h.eventId {
      if t in ob.subscribers {
        OnlyUnderOwnKind(ob, h, t);
      }
    } else if t in ob.subscribers {
      var s := ob.subscribers[t];
      if h.call in CallsOf(s) {
        var i :| 0 <= i < |s| && Same(s[i], h) && h.call !in CallsOf(s[..i]) && r.subscribers[t] == s[..i] + s[i + 1..];
        DeleteKeepsDistinct(s, i);
      }
    }
  }

  /** An unsubscribed handle's callback is never run by a later `notify`, whatever the event. */
  lemma UnsubscribedNeverCalled<S>(ob: Observer<S>, h: Subscriber, e: Event, st: S)
    requires Wf(ob) && Handle(ob, h)
    ensures Wf(Unsubscribe(ob, h))
    ensures h.call !in Notify(Unsubscribe(ob, h), e, st).called
  {
    UnsubscribeKeepsWf(ob, h);
    UnsubscribeRemovesEverywhere(ob, h, e.tag);
  }

  /**
   * `subscribe` then `unsubscribe` of the returned handle restores every list;
   * the only trace left is an empty list for a kind that had none before.
   */
  lemma SubscribeThenUnsubscribe<S>(ob: Observer<S>, eventId: Tag, call: Callback<S>)
    requires Wf(ob)
    ensures var (ob1, h) := Subscribe(ob, eventId, call);
      Unsubscribe(ob1, h).subscribers ==
        if eventId in ob.subscribers then ob.subscribers else ob.subscribers[eventId := []]
  {
    var (ob1, h) := Subscribe(ob, eventId, call);
    var b := Bucket(ob, eventId);
    AppendThenRemove(b, h);
    RestoreList(ob.subscribers, eventId, b + [h], b);
  }

  /** Overwriting a key twice keeps the last value; writing back the old value restores the map. */
  lemma RestoreList(m: map<Tag, seq<Subscriber>>, t: Tag, v: seq<Subscriber>, previous: seq<Subscriber>)
    requires previous == if t in m then m[t] else []
    ensures m[t := v][t := previous] == if t in m then m else m[t := []]
  {
  }

  /** Removing a cell just appended to a list that did not hold it gives back the list. */
  lemma AppendThenRemove(b: seq<Subscriber>, h: Subscriber)
    requires h.call !in CallsOf(b)
    ensures RemoveSubscriber(b + [h], h) == b
  {
    var s := b + [h];
    assert CallsOf(s)[..|b|] == CallsOf(b);
    assert CallsOf(s)[|b|] == h.call;
    assert Position(s, h) == Some(|b|);
    assert s[..|b|] + s[|b| + 1..] == b;
  }

  /** Two subscriptions never produce equal handles, even for the same kind and closure. */
  lemma SubscriptionsDiffer<S>(ob: Observer<S>, t1: Tag, f1: Callback<S>, t2: Tag, f2: Callback<S>)
    requires Wf(ob)
    ensures var (ob1, h1) := Subscribe(ob, t1, f1);
      var (ob2, h2) := Subscribe(ob1, t2, f2);
      !Same(h1, h2) && Same(h1, Clone(h1))
  {
  }
}

=== FILE: typed_observer_scenarios.dfy ===
/**
 * The demo and the tests of the simple typed observer, with the closures
 * written out: `FirstEvent { name }` and `SecondEvent { num }` are two kinds,
 * and the state the closures capture is a `String`, a flag or a counter.
 */
module TypedObserverScenarios {
  import opened Wrappers
  import opened Events
  import opened TypedObserver

  const FirstEvent: Tag := 1
  const SecondEvent: Tag := 2

  /** The `name` field of a `FirstEvent`. */
  function NameOf(e: Event): string
  {
    match e.payload
    case Text(s) => s
    case _ => ""
  }

  /** The `num: i32` field of a `SecondEvent`. */
  function NumOf(e: Event): int
  {
    match e.payload
    case Signed(i) => i
    case _ => 0
  }

  /** `push_str(&format!("name: {}, ", event.name))`. */
  function NameLine(e: Event, st: string): string
  {
    st + "name: " + NameOf(e) + ", "
  }

  /** `push_str(&format!("num: {}", event.num))`. */
  function NumLine(e: Event, st: string): string
  {
    st + "num: " + IntToString(NumOf(e))
  }

  /** Neither kind has a list yet, as in a fresh `Observer::new()`. */
  ghost predicate Unused<S>(ob: Observer<S>)
  {
    Wf(ob) && FirstEvent !in ob.subscribers && SecondEvent !in ob.subscribers
  }

  lemma NewIsUnused<S>()
    ensures Unused(New<S>())
  {
  }

  /**
   * `main`: subscribe a name printer and a number printer, notify one event of
   * each kind, unsubscribe the number printer, notify a second number.
   */
  function Demo(): (r: string)
  {
    DemoOn(New())
  }

  function DemoOn(ob0: Observer<string>): string
    requires Wf(ob0)
  {
    var (ob1, _) := Subscribe(ob0, FirstEvent, NameLine);
    var (ob2, second) := Subscribe(ob1, SecondEvent, NumLine);
    var s1 := Notify(ob2, Event(FirstEvent, Text("ilopX")), "").state;
    var s2 := Notify(ob2, Event(SecondEvent, Signed(100)), s1).state;
    UnsubscribeKeepsWf(ob2, second);
    var ob3 := Unsubscribe(ob2, second);
    Notify(ob3, Event(SecondEvent, Signed(200)), s2).state
  }

  /** The demo's assertion holds: the unsubscribed printer does not see `num: 200`. */
  lemma DemoText()
    ensures Demo() == "name: ilopX, num: 100"
  {
    NewIsUnused<string>();
    DemoOnText(New());
  }

  lemma DemoOnText(ob0: Observer<string>)
    requires Unused(ob0)
    ensures DemoOn(ob0) == "name: ilopX, num: 100"
  {
    var (ob1, first) := Subscribe(ob0, FirstEvent, NameLine);
    var (ob2, second) := Subscribe(ob1, SecondEvent, NumLine);
    assert ob2.subscribers[FirstEvent] == [first];
    assert ob2.subscribers[SecondEvent] == [second];
    var e1, e2 := Event(FirstEvent, Text("ilopX")), Event(SecondEvent, Signed(100));
    var s1 := Notify(ob2, e1, "").state;
    NotifyOne(ob2, e1, first, "");
    var s2 := Notify(ob2, e2, s1).state;
    NotifyOne(ob2, e2, second, s1);
    UnsubscribeKeepsWf(ob2, second);
    var ob3 := Unsubscribe(ob2, second);
    AppendThenRemove([], second);
    assert [] + [second] == [second];
    assert ob3.subscribers[SecondEvent] == [];
    NotifyNone(ob3, Event(SecondEvent, Signed(200)), s2);
    DemoLines();
  }

  /** The two `format!` lines of the demo, one after the other. */
  lemma DemoLines()
    ensures NumLine(Event(SecondEvent, Signed(100)), NameLine(Event(FirstEvent, Text("ilopX")), "")) == "name: ilopX, num: 100"
  {
    HundredDigits();
  }

  lemma HundredDigits()
    ensures IntToString(100) == "100"
  {
    assert NatToString(1) == "1";
    assert NatToString(10) == "10";
  }

  /** `push_str(&event.name)`. */
  function CollectName(e: Event, st: string): string
  {
    st + NameOf(e)
  }

  /** `it_works.set(true)`. */
  function SetWorked(e: Event, worked: bool): bool
  {
    true
  }

  /** `counter.set(counter.get() + 10)`. */
  function AddTen(e: Event, c: int): int
  {
    c + 10
  }

  /** `counter.set(counter.get() + event.num)`. */
  function AddNum(e: Event, c: int): int
  {
    c + NumOf(e)
  }

  /** `subscribe_notify`: one name collector, one `FirstEvent { name: "rust" }`. */
  function SubscribeNotify(): (r: string)
  {
    SubscribeNotifyOn(New())
  }

  function SubscribeNotifyOn(ob0: Observer<string>): string
    requires Wf(ob0)
  {
    var (ob, _) := Subscribe(ob0, FirstEvent, CollectName);
    Notify(ob, Event(FirstEvent, Text("rust")), "").state
  }

  lemma SubscribeNotifyText()
    ensures SubscribeNotify() == "rust"
  {
    NewIsUnused<string>();
    SubscribeNotifyOnText(New());
  }

  lemma SubscribeNotifyOnText(ob0: Observer<string>)
    requires Unused(ob0)
    ensures SubscribeNotifyOn(ob0) == "rust"
  {
    var (ob, h) := Subscribe(ob0, FirstEvent, CollectName);
    assert ob.subscribers[FirstEvent] == [h];
    NotifyOne(ob, Event(FirstEvent, Text("rust")), h, "");
  }

  /** `unsubscribe`: a flag setter is subscribed and at once unsubscribed, then a `FirstEvent` is sent. */
  function UnsubscribeTest(): (r: bool)
  {
    UnsubscribeTestOn(New())
  }

  function UnsubscribeTestOn(ob0: Observer<bool>): bool
    requires Wf(ob0)
  {
    var (ob, h) := Subscribe(ob0, FirstEvent, SetWorked);
    UnsubscribeKeepsWf(ob, h);
    Notify(Unsubscribe(ob, h), Event(FirstEvent, Text("")), false).state
  }

  lemma UnsubscribeTestFlag()
    ensures UnsubscribeTest() == false
  {
    NewIsUnused<bool>();
    UnsubscribeTestOnFlag(New());
  }

  lemma UnsubscribeTestOnFlag(ob0: Observer<bool>)
    requires Unused(ob0)
    ensures UnsubscribeTestOn(ob0) == false
  {
    var (ob, h) := Subscribe(ob0, FirstEvent, SetWorked);
    UnsubscribeKeepsWf(ob, h);
    SubscribeThenUnsubscribe(ob0, FirstEvent, SetWorked);
    assert Unsubscribe(ob, h).subscribers[FirstEvent] == [];
  }

  /** `two_events`: one counter step of 10 per `FirstEvent`, of `num` per `SecondEvent`. */
  function TwoEvents(): (r: int)
  {
    TwoEventsOn(New())
  }

  function TwoEventsOn(ob0: Observer<int>): int
    requires Wf(ob0)
  {
    var (ob1, _) := Subscribe(ob0, FirstEvent, AddTen);
    var (ob2, _) := Subscribe(ob1, SecondEvent, AddNum);
    var c1 := Notify(ob2, Event(FirstEvent, Text("")), 0).state;
    Notify(ob2, Event(SecondEvent, Signed(5)), c1).state
  }

  /** The two kinds accumulate independently: 10 + 5. */
  lemma TwoEventsCount()
    ensures TwoEvents() == 15
  {
    NewIsUnused<int>();
    TwoEventsOnCount(New());
  }

  lemma TwoEventsOnCount(ob0: Observer<int>)
    requires Unused(ob0)
    ensures TwoEventsOn(ob0) == 15
  {
    var (ob1, first) := Subscribe(ob0, FirstEvent, AddTen);
    var (ob2, second) := Subscribe(ob1, SecondEvent, AddNum);
    assert ob2.subscribers[FirstEvent] == [first];
    assert ob2.subscribers[SecondEvent] == [second];
    NotifyOne(ob2, Event(FirstEvent, Text("")), first, 0);
    assert Notify(ob2, Event(FirstEvent, Text("")), 0).state == 10;
    NotifyOne(ob2, Event(SecondEvent, Signed(5)), second, 10);
  }
}

=== FILE: value_observer.dfy ===
/**
 * The value observer with handles (`observer/value_observer/main.rs` and its
 * twin `observer/safe/value_observer/main.rs`, which differ only in lifetimes
 * and `unsafe`): one list of subscribers, `subscribe` hands back an equal
 * clone, `unsubscribe` drops EVERY equal entry (`retain`), and `notify` runs
 * the list in order with the new value.
 *
 * A subscriber is its callback cell: `PartialEq` is `Rc::ptr_eq` on the only
 * field, so datatype equality on `Subscriber` is exactly the source's `==`.
 */
module ValueObserver {
  import Lists
  import PlainObserver

  type CallId = nat

  type Callback<!T, !S> = PlainObserver.Callback<T, S>

  /** `Subscriber { call }`: a handle on one callback cell. */
  datatype Subscriber = Subscriber(call: CallId)

  datatype Observer<!T, !S> = Observer(subs: seq<Subscriber>, cells: map<CallId, Callback<T, S>>, nextCall: nat)

  /** Every listed handle has a cell, and every cell identity was handed out. */
  ghost predicate Wf<T, S>(ob: Observer<T, S>)
  {
    && (forall i :: 0 <= i < |ob.subs| ==> ob.subs[i].call in ob.cells)
    && (forall c :: c in ob.cells ==> c < ob.nextCall)
  }

  /** `Subscriber::clone`: another handle on the same cell, hence equal. */
  function Clone(s: Subscriber): (r: Subscriber)
    ensures r == s
  {
    Subscriber(s.call)
  }

  /** `Observer::new`: no subscribers. */
  function New<T, S>(): (r: Observer<T, S>)
    ensures Wf(r) && r.subs == []
  {
    Observer([], map[], 0)
  }

  /** `subscribe`: a fresh cell, one subscriber appended, and a handle equal to it returned. */
  function Subscribe<T, S>(ob: Observer<T, S>, call: Callback<T, S>): (r: (Observer<T, S>, Subscriber))
    requires Wf(ob)
    ensures Wf(r.0)
    ensures r.0.subs == ob.subs + [r.1] && r.1 !in ob.subs
    ensures r.1.call !in ob.cells && r.0.cells == ob.cells[r.1.call := call]
  {
    var id := ob.nextCall;
    var created := Subscriber(id);
    assert forall i :: 0 <= i < |ob.subs| ==> ob.subs[i].call < id;
    (Observer(ob.subs + [Clone(created)], ob.cells[id := call], id + 1), created)
  }

  /**
   * `unsubscribe(h)`: `retain(|val| val != &h)`. Every copy of `h` goes, every
   * other entry stays; an unknown handle changes nothing. Only the list
   * changes: the closures behind the remaining handles are the same.
   */
  function Unsubscribe<T, S>(ob: Observer<T, S>, h: Subscriber): (r: Observer<T, S>)
    ensures h !in r.subs
    ensures forall x :: x in r.subs <==> x in ob.subs && x != h
    ensures |r.subs| == |ob.subs| - Lists.Count(ob.subs, h)
    ensures h !in ob.subs ==> r == ob
    ensures Wf(ob) ==> Wf(r)
    ensures r.cells == ob.cells && r.nextCall == ob.nextCall
  {
    ob.(subs := Lists.RemoveAll(ob.subs, h))
  }

  /** The closures behind the handles, in list order: the observer seen as a plain closure list. */
  function Erase<T, S>(ob: Observer<T, S>): (r: PlainObserver.Observer<T, S>)
    requires Wf(ob)
    ensures |r.subs| == |ob.subs|
    ensures forall i :: 0 <= i < |ob.subs| ==> r.subs[i] == ob.cells[ob.subs[i].call]
  {
    PlainObserver.Observer(seq(|ob.subs|, i requires 0 <= i < |ob.subs| => ob.cells[ob.subs[i].call]))
  }

  /**
   * `notify(v)`: the `for` loop over the list. Each subscriber is called once,
   * in list order, with `v`; the captured state ends as the plain observer
   * over the same closures would leave it.
   */
  method Notify<T, S>(ob: Observer<T, S>, v: T, st: S) returns (state: S, called: seq<Subscriber>)
    requires Wf(ob)
    ensures called == ob.subs
    ensures state == PlainObserver.Notify(Erase(ob), v, st)
  {
    var closures := Erase(ob).subs;
    state, called := st, [];
    for i := 0 to |ob.subs|
      invariant called == ob.subs[..i]
      invariant state == PlainObserver.RunAll(closures[..i], v, st)
    {
      PlainObserver.RunAllAppend(closures[..i], [closures[i]], v, st);
      assert closures[..i + 1] == closures[..i] + [closures[i]];
      assert PlainObserver.RunAll([closures[i]], v, state) == closures[i](v, state);
      state := ob.cells[ob.subs[i].call](v, state);
      called := called + [ob.subs[i]];
    }
    assert closures[..|ob.subs|] == closures;
  }

  /** Handles and erasure commute: subscribing here is subscribing the same closure to the plain list. */
  lemma EraseSubscribe<T, S>(ob: Observer<T, S>, call: Callback<T, S>)
    requires Wf(ob)
    ensures Erase(Subscribe(ob, call).0) == PlainObserver.Subscribe(Erase(ob), call)
  {
    var r := Subscribe(ob, call);
    assert forall i :: 0 <= i < |ob.subs| ==> r.0.cells[ob.subs[i].call] == ob.cells[ob.subs[i].call];
  }

  /** Unsubscribing the handle `subscribe` just returned restores the list. */
  lemma SubscribeThenUnsubscribe<T, S>(ob: Observer<T, S>, call: Callback<T, S>)
    requires Wf(ob)
    ensures var (ob1, h) := Subscribe(ob, call);
      Unsubscribe(ob1, h).subs == ob.subs
  {
    var (ob1, h) := Subscribe(ob, call);
    assert ob1.subs == ob.subs + [h] && h !in ob.subs;
    Lists.RemoveAllAppend(ob.subs, [h], h);
    assert Lists.RemoveAll(ob.subs, h) == ob.subs;
    assert Lists.RemoveAll([h], h) == [] by {
      assert [h][1..] == [];
    }
    assert Unsubscribe(ob1, h).subs == ob.subs + [];
  }

  /** `retain` keeps the surviving subscribers in their order. */
  lemma UnsubscribeKeepsOrder<T, S>(ob: Observer<T, S>, h: Subscriber)
    ensures Lists.SubsequenceOf(Unsubscribe(ob, h).subs, ob.subs)
  {
    Lists.RemoveAllKeepsOrder(ob.subs, h);
  }

  /** `main`: notify 1 and 2, unsubscribe the only subscriber, notify 3 and 4. */
  method Demo() returns (acc: seq<int>)
    ensures acc == [1, 2]
  {
    var push := PlainObserver.Push;
    var (ob, subscriber) := Subscribe(New<int, seq<int>>(), push);
    var none := PlainObserver.New<int, seq<int>>();
    EraseSubscribe(New<int, seq<int>>(), push);
    assert Erase(New<int, seq<int>>()) == none;
    PlainObserver.NotifyAfterSubscribe(none, push, 1, []);
    PlainObserver.NotifyEmpty(none, 1, []);
    PlainObserver.NotifyAfterSubscribe(none, push, 2, [1]);
    PlainObserver.NotifyEmpty(none, 2, [1]);
    var called;
    acc, called := Notify(ob, 1, []);
    assert acc == [1];
    acc, called := Notify(ob, 2, acc);
    assert acc == [1, 2];
    var ob2 := Unsubscribe(ob, subscriber);
    assert Erase(ob2) == none;
    PlainObserver.NotifyEmpty(none, 3, acc);
    acc, called := Notify(ob2, 3, acc);
    PlainObserver.NotifyEmpty(none, 4, acc);
    acc, called := Notify(ob2, 4, acc);
  }
}

=== FILE: wrappers.dfy ===
/** Failure-compatible optional values, standing in for Rust's `Option`. */
module Wrappers {

  /** `None` also stands for a panic where the source calls `unwrap` on a missing value. */
  datatype Option<+T> = None | Some(value: T)
}
